=== FILE: README.md ===
# Posterior-enumeration test harness of loom, in Dafny

loom's posterior-enumeration test checks the cross-cat sampler by brute force on small
datasets:

- It enumerates every latent structure a tiny table can have.
- It runs the sampler long enough to visit all of them.
- It compares the visit counts with the exact posterior.

This project models the pure logic of that harness (`src/test/test_posterior_enum.py`) and
proves what the harness relies on.

- **Partitions** (`partitions.dfy`): the recursive set-partition generator `enum_partitions`.
  Each partition of {1..n-1} either gains n as a new singleton or gets n appended to one of
  its parts. The generator yields exactly the set partitions of {1..n}, each once.
- **Counting** (`counting.dfy`): the reference counts.
  - Stirling numbers of the second kind and Bell numbers.
  - The cross-cat count `count_crosscats`: for a feature partition with k parts, each part
    chooses its own row partition, so the partition contributes `B(rows)^k`.
  - The identity connecting the generator to these counts.
- **StirlingTable** (`stirling_table.dfy`): the Stirling rows up to 18. From them, the
  `BELL_NUMBERS` table is proved correct.
- **LatentSpace** (`latent_sizes.dfy`):
  - The `datasets` command, which prints one row of cross-cat counts per row count and
    stops at the size ceiling.
  - A proof that, run with the ceiling 10000000, it yields exactly the `LATENT_SIZES` table.
- **Grid** (`grid.dfy`):
  - The `(object count, feature count)` pairs that `infer_cats` and `infer_kinds` select.
  - Their product with feature types and densities.
  - The per-case `sample_count`, `sample_skip` and `iterations` of `_test_dataset`.
- **Accumulation** (`accumulate.dfy`): the single pass of `_test_dataset_config`. It streams
  `(latent, score)` samples into per-latent counts and first scores, and rejects a repeated
  latent whose score drifts.
- **Ranking** (`ranking.dfy`):
  - The argsort-based ranking by probability and by count.
  - The 32-latent truncation and the accuracy filter `sample_count * p * (1 - p) >= 1`.
  - The Warn / Pass / Fail decision.
- **Validation** (`validation.dfy`): all of `_test_dataset_config` after the samples are
  produced. That covers the sample-count check, the latent-space bound, the under-coverage
  warning and the verdict.
- **Rows** (`rows.dfy`):
  - `serialize_rows`: one message per row, carrying the row id, one observed flag per cell
    and the present values split into boolean, count and real lists (booleans before
    integers). A value of any other type raises an error after the earlier rows were emitted.
  - A decoder, with round trips in both directions.
- **Generation** (`generate.dfy`): `generate_rows`, with the random draws as inputs, and the
  density guarantees its test asserts.
- **Latent** (`latent.dfy`): `parse_sample`, which forgets every order in a sample message.
  With a single kind, the enumerated row partitions give exactly Bell(n) distinct latents.
- **Wrappers** (`wrappers.dfy`): `Option` and `Result`.

Randomness, the sampler engine, floating-point numerics and file handling come from outside
the harness. They are parameters here:

- the softmax `scores_to_probs`;
- the argsort, required to be a sorting permutation;
- `multinomial_goodness_of_fit`;
- the uniform draws and sampler values of `generate_rows`;
- the clustering it samples;
- the key order of the tally dictionary.

## Model

| member | source | states |
|---|---|---|
| Partitions.EnumerateValid | src/test/test_posterior_enum.py:448-457 | every yielded sequence is a set partition of {1..n}: parts non-empty, no label twice in a part, labels within 1..n, every label covered, parts pairwise disjoint |
| Partitions.EnumerateNoRepeats | src/test/test_posterior_enum.py:448-457 | no two yielded partitions have the same blocks |
| Partitions.EnumerateComplete | src/test/test_posterior_enum.py:448-457 | every set partition of {1..n} is yielded, as some sequence of parts |
| Partitions.ExtendValid | src/test/test_posterior_enum.py:454-457 | adding n as a new singleton or to any part of a partition of {1..n-1} gives a partition of {1..n} |
| Partitions.ExtendNoRepeats | src/test/test_posterior_enum.py:455-457 | the extensions of one partition have pairwise different blocks |
| Partitions.RemoveAfterExtend | src/test/test_posterior_enum.py:454-457 | removing n from the blocks of any extension gives back the blocks of the partition extended |
| Counting.EnumerateBySize | src/test/test_posterior_enum.py:448-457 | the number of yielded partitions with k parts is the Stirling number S(n, k) |
| Counting.EnumerateCount | src/test/test_posterior_enum.py:466-470 | the generator yields Bell(n) partitions, Bell(n) being the sum of S(n, k) over k |
| StirlingTable.BellNumbersCorrect | src/test/test_posterior_enum.py:460-463 | every entry of the Bell table equals Bell(n) |
| StirlingTable.EnumerateCountMatchesTable | src/test/test_posterior_enum.py:466-470 | for every entry of the Bell table, not only those below one million, the generator yields exactly that many partitions |
| Counting.SumOverEnumerate | src/test/test_posterior_enum.py:473-476 | summing any weight of the part count over the yielded partitions equals the Stirling-weighted sum |
| Counting.CrossCatIdentity | src/test/test_posterior_enum.py:473-476 | the cross-cat count equals the sum over k of S(cols, k) * B(rows)^k |
| Counting.CrossCatSmallColumns | src/test/test_posterior_enum.py:473-476 | with no columns there is one cross-cat; with one column there are B(rows) |
| Counting.CrossCatOfOneRowPartition | src/test/test_posterior_enum.py:48-50 | when rows have a single partition, the cross-cat count of c columns is Bell(c), as rows 0 and 1 of the size table show |
| LatentSpace.RowCountsSpec | src/test/test_posterior_enum.py:490-496 | a row lists the cross-cat counts of consecutive column counts, each within the ceiling, and stops at the first count over the ceiling or after twelve columns |
| LatentSpace.RowCountsUnique | src/test/test_posterior_enum.py:490-496 | any list of consecutive counts within the ceiling that stops where the command stops is the printed row |
| LatentSpace.RowCountsBeyondBound | src/test/test_posterior_enum.py:493-497 | once B(rows) is over the ceiling the row has at most one entry, so the printing rule skips it |
| LatentSpace.DatasetRowsSound | src/test/test_posterior_enum.py:490-498 | every printed row has more than one entry and is the count row of some row count up to 16 |
| LatentSpace.DatasetRowsComplete | src/test/test_posterior_enum.py:490-498 | every count row with more than one entry is printed |
| LatentSpace.DatasetRowsSuffix | src/test/test_posterior_enum.py:490-498 | from any row count on, the printed rows are exactly the stored rows from that row count on |
| LatentSpace.DatasetsMatchLatentSizes | src/test/test_posterior_enum.py:46-62 | running the command with the ceiling 10000000 yields exactly the size table |
| LatentSpace.LatentSizesEntry | src/test/test_posterior_enum.py:48-62 | every entry of the size table is the cross-cat count of its row and column |
| Grid.RowDims | src/test/test_posterior_enum.py:118-120 | the kept pairs of one table row are exactly the columns that pass the filter, in column order |
| Grid.TableDims | src/test/test_posterior_enum.py:116-121 | the kept pairs are exactly the table entries that pass the filter, ordered by object count and then feature count |
| Grid.InferCatsDims | src/test/test_posterior_enum.py:116-121 | a pair is selected iff it has at least two objects, at least one feature and a table size within the bound; selection order is lexicographic |
| Grid.InferKindsDims | src/test/test_posterior_enum.py:135-141 | a pair is selected iff it has at least one object and feature, more than two together, and a table size within the bound; selection order is lexicographic |
| Grid.QuickCatCases | src/test/test_posterior_enum.py:153-154 | the quick categorical test runs exactly the pairs (2,1) (2,2) (2,3) (2,4) (3,1) (3,2) (4,1) (5,1), in this order |
| Grid.QuickKindCases | src/test/test_posterior_enum.py:157-159 | the quick kind test runs exactly the pairs (1,2) .. (1,5), (2,1) .. (2,4), (3,1) (3,2) (4,1) (5,1), in this order |
| Grid.Cases | src/test/test_posterior_enum.py:122-123 | the cases are every combination of a selected pair, one of the four feature types and one of the three densities |
| Grid.CaseConfig | src/test/test_posterior_enum.py:181-193 | the sample count is ten times the number of latents the case can reach, the skip is 10, and kernel iterations are positive iff kinds are inferred |
| Grid.SelectedCasesConfigurable | src/test/test_posterior_enum.py:135-143 | every built case lies in the size table, with positive counts, the command's kind setting and a size within the bound |
| Accumulation.TallySnoc | src/test/test_posterior_enum.py:229-238 | one more sample increments its latent's count and records its score only when the latent is new |
| Accumulation.Accumulate | src/test/test_posterior_enum.py:228-238 | the pass succeeds iff every repeated latent is within the tolerance of its first score, yielding the reference tally; otherwise it names the first drifting sample and both scores |
| Accumulation.CountsSumToSamples | src/test/test_posterior_enum.py:228-239 | the per-latent counts, listed in key order, add up to the number of samples |
| Validation.ExpectedLatentCount | src/test/test_posterior_enum.py:243-247 | the bound is the Touchard sum of B(objects) over the features when kinds are inferred, and Bell(objects) otherwise |
| Validation.CheckTally | src/test/test_posterior_enum.py:239-252 | a sample-count mismatch fails first, then more latents than the bound; otherwise it reports whether fewer latents were seen than exist |
| Validation.TestDatasetConfig | src/test/test_posterior_enum.py:224-266 | a case is accepted iff all scores are consistent, the sample count matches and the latents fit the latent space; otherwise it fails on the first inconsistent sample with both scores, else on the count mismatch, else on too many latents, in that order; under-coverage is flagged iff latents are missing; it warns iff no top latent is accurate and otherwise has the verdict of the ranking |
| Ranking.Argsort | src/test/test_posterior_enum.py:258-261 | the result is a permutation of the indices, ordered by non-decreasing key |
| Ranking.TopShape | src/test/test_posterior_enum.py:258 | the top list holds min(32, n) distinct indices in range |
| Ranking.TopRanksHighest | src/test/test_posterior_enum.py:258-261 | every index left out of the top list has a key no larger than every index in it |
| Ranking.KeepAccurate | src/test/test_posterior_enum.py:259-260 | keeps exactly the listed indices whose probability is accurate, as a subsequence of the list (so in its order), and without repeats when the list has none |
| Ranking.Truncate | src/test/test_posterior_enum.py:258-263 | the kept latents by probability are distinct, accurate, and a subsequence of the top 32 by probability (in its order), and include every accurate one there; the kept latents by count are exactly the top min(32, n) by count; the highest set is their union, and the truncated flag holds iff some latent is dropped |
| Ranking.TruncateRanks | src/test/test_posterior_enum.py:258-261 | a latent is kept by probability iff it is accurate and ranks in the top 32; a latent kept by probability is at least as probable as any outside the top, and one kept by count occurs at least as often as any left out |
| Ranking.Judge | src/test/test_posterior_enum.py:264-290 | warns iff no latent is kept; otherwise passes iff the fit exceeds 0.001 |
| Ranking.Analyse | src/test/test_posterior_enum.py:258-290 | warns iff none of the top 32 by probability is accurate; otherwise passes iff the fit of the accurate ones exceeds 0.001 |
| Ranking.WarnIgnoresFit | src/test/test_posterior_enum.py:264-266 | without accurate latents the verdict is Warn whatever the fit statistic |
| Rows.KindOf | src/test/test_posterior_enum.py:373-381 | booleans go to the boolean list although they are integers; other integers to counts, floats to reals, anything else nowhere |
| Rows.EncodeCells | src/test/test_posterior_enum.py:370-382 | encoding fails iff some cell has an unknown type, naming the first one; otherwise there is one observed flag per cell, true iff present, and one payload entry per present cell of each kind |
| Rows.SerializeFrom | src/test/test_posterior_enum.py:368-384 | the messages carry consecutive ids from the first row's id, at most one per row |
| Rows.SerializeFromSpec | src/test/test_posterior_enum.py:368-384 | rows are emitted with their encodings until the first row holding an unknown value, which ends the stream with an error naming that row, its first bad column and the value; without such a row every row is emitted |
| Rows.SerializeRows | src/test/test_posterior_enum.py:367-384 | message i has id i and the encoding of row i; the error, if any, names the first bad row, which is the number of messages emitted |
| Rows.UnappendAppend | src/test/test_posterior_enum.py:370-380 | appending a cell of its column's kind and taking it off again restores the payload and the cell |
| Rows.AppendUnappend | src/test/test_posterior_enum.py:370-380 | a cell taken off a payload appends back to the same payload |
| Rows.DecodeEncode | src/test/test_posterior_enum.py:370-382 | cells that fit their column kinds encode, and decode back to themselves |
| Rows.EncodeDecode | src/test/test_posterior_enum.py:370-382 | a payload that decodes is exactly the encoding of the decoded cells |
| Rows.SerializeRowsRoundTrip | src/test/test_posterior_enum.py:367-384 | a table whose rows fit the column kinds is emitted in full, and every message decodes back to its row |
| Generation.GenerateRows | src/test/test_posterior_enum.py:318-352 | rejects non-positive counts and densities outside [0, 1] in that order; otherwise the table has object-count rows of feature-count cells, each present iff its uniform draw is below the density and then drawn from its object's group |
| Generation.DensityOneFillsAll | src/test/test_posterior_enum.py:355-357 | at density 1 every cell is present |
| Generation.DensityZeroEmptiesAll | src/test/test_posterior_enum.py:359-360 | at density 0 every cell is missing |
| Generation.MixedDensityMixes | src/test/test_posterior_enum.py:362-364 | a draw below the density and one not below it give both a present and a missing cell |
| Latent.ParseKindBlocks | src/test/test_posterior_enum.py:420-427 | the parsed groups of a kind are the blocks of its row partition |
| Latent.ParseSampleIgnoresKindOrder | src/test/test_posterior_enum.py:420-427 | reordering or repeating kinds leaves the latent unchanged |
| Latent.ParseKindIgnoresOrder | src/test/test_posterior_enum.py:420-427 | reordering features, groups or rows inside a kind leaves it unchanged |
| Latent.SingleKindLatentsDistinct | src/test/test_posterior_enum.py:420-427 | single-kind samples whose row partitions differ as sets are different latents |
| Latent.SingleKindLatentSpace | src/test/test_posterior_enum.py:244-248 | with kinds fixed, the enumerated row partitions of n objects give exactly Bell(n) distinct latents, the bound the validation uses |

## Left out

- `src/loom.cc`, `src/loom.hpp` and `loom/benchmark.py` are not part of this model. They are the sampler engine and command-line plumbing.
- File and process handling is not modelled: temporary directories, dumping models and rows, running the sampler, parallel maps and reading the sample stream.
- `generate_model` is not modelled. It only builds a protobuf model from the feature-model libraries.
- The protobuf byte encoding is not modelled. Rows stop at the message fields, and integer widths of counts and ids are not bounded.
- Logging, colouring, the printed table of a failing case, and `pretty_kind` / `pretty_latent` are left out. They only format text for that output.
- `scores_to_probs` and `multinomial_goodness_of_fit` are floating-point numerics from another library. They are parameters, and probabilities and scores are exact reals.
- Ranking.Argsort: numpy's argsort does not specify the order of equal keys. The model requires only that the argsort is a sorting permutation. `Ranking.Argsort` is one such sort (stable), not numpy's.
- Validation.TestDatasetConfig: the key order of the tally dictionary is a parameter (`order`), required only to list every latent once.
- Generation.GenerateRows: the uniform draws and sampler values are indexed by feature, group and object rather than read from one shared random stream. Also, sampler creation consuming random numbers is not modelled.
- Generation.GenerateRows: the clustering sampler is not modelled. Its assignments are an input that must fit the table: one kind per feature, and one group per object in each kind.
- Generation.MixedDensityMixes: at density 0.5 the test's check that both present and missing cells occur is probabilistic. The model proves it only given one draw on each side of the density.
- Counting.CountCrossCats: for a row count past the end of the Bell table the source raises an index error. The model requires the row count to lie within the table.
- Latent.ParseSample: the score field is not part of the latent. The multi-kind latent space is counted by `Counting.CrossCatIdentity` on partitions, not through parsed messages.
- The command-line dispatch of `infer_cats`, `infer_kinds` and `datasets`, and their `debug` flag, are not modelled.
- The default size bounds of `infer_cats` (100000) and `infer_kinds` (205) are not singled out. The selection is modelled and proved for every bound, and the quick tests' bound of 100 is worked out in full.

=== FILE: accumulate.dfy ===
/**
 * Streaming the posterior samples into per-latent counts and scores.
 *
 * The enumerator emits a stream of (latent, score) pairs.  The validation
 * counts how often each latent occurs, remembers the score it had the first
 * time, and rejects the run as soon as a repeated latent comes with a score
 * that differs from its first score by the tolerance or more.
 *
 * The reference definitions below read the stream directly (by its last
 * sample); `Accumulate` is the single pass of the validation, and its
 * contract says it computes exactly the reference tally.
 */
module Accumulation {
  import opened Wrappers

  /** Two scores of the same latent must differ by less than this. */
  const ScoreTol: real := 0.1

  function Abs(x: real): (r: real)
    ensures r >= 0.0 && (r == x || r == -x)
  {
    if x < 0.0 then -x else x
  }

  /** A latent structure together with the score the enumerator gave it. */
  type Sample<L> = (L, real)

  /** The latents occurring in a stream. */
  function Latents<L>(s: seq<Sample<L>>): set<L>
  {
    set i | 0 <= i < |s| :: s[i].0
  }

  /** How often latent x occurs in a stream. */
  function Occurrences<L(==)>(s: seq<Sample<L>>, x: L): nat
  {
    if s == [] then 0
    else Occurrences(s[..|s| - 1], x) + (if s[|s| - 1].0 == x then 1 else 0)
  }

  /** The score x had at its first occurrence. */
  function FirstScore<L(==)>(s: seq<Sample<L>>, x: L): real
    requires x in Latents(s)
  {
    var init := s[..|s| - 1];
    if x in Latents(init) then FirstScore(init, x) else s[|s| - 1].1
  }

  /** Sample i repeats no latent, or repeats one with a score close to its first score. */
  predicate ConsistentAt<L(==)>(s: seq<Sample<L>>, i: nat)
    requires i < |s|
  {
    var x := s[i].0;
    x in Latents(s[..i]) ==> Abs(s[i].1 - FirstScore(s[..i], x)) < ScoreTol
  }

  /** Occurrence counts, first scores and the number of samples seen. */
  datatype Tally<L> = Tally(counts: map<L, nat>, scores: map<L, real>, actual: nat)

  /** The tally of a whole stream, read off the stream. */
  function TallyOf<L(==)>(s: seq<Sample<L>>): Tally<L>
  {
    Tally(map x | x in Latents(s) :: Occurrences(s, x), map x | x in Latents(s) :: FirstScore(s, x), |s|)
  }

  /** Why a case is rejected outright. */
  datatype Fault =
    | InconsistentScore(index: nat, score: real, firstScore: real)
    | CountMismatch(actual: nat, expected: nat)
    | TooManyLatents(found: nat, expected: nat)

  lemma LatentsSnoc<L>(s: seq<Sample<L>>, e: Sample<L>)
    ensures Latents(s + [e]) == Latents(s) + {e.0}
  {
    var t := s + [e];
    assert forall i :: 0 <= i < |s| ==> t[i] == s[i];
    assert t[|s|] == e;
  }

  lemma {:induction false} OccurrencesAbsent<L>(s: seq<Sample<L>>, x: L)
    requires x !in Latents(s)
    ensures Occurrences(s, x) == 0
  {
    if s != [] {
      var init := s[..|s| - 1];
      LatentsSnoc(init, s[|s| - 1]);
      assert init + [s[|s| - 1]] == s;
      OccurrencesAbsent(init, x);
    }
  }

  /** Taking one more sample into the tally updates exactly that sample's latent. */
  lemma TallySnoc<L>(s: seq<Sample<L>>, e: Sample<L>)
    ensures var t := TallyOf(s);
      TallyOf(s + [e]) ==
        if e.0 in t.counts
        then Tally(t.counts[e.0 := t.counts[e.0] + 1], t.scores, t.actual + 1)
        else Tally(t.counts[e.0 := 1], t.scores[e.0 := e.1], t.actual + 1)
  {
    var s' := s + [e];
    assert s'[..|s'| - 1] == s;
    LatentsSnoc(s, e);
    var t := TallyOf(s);
    var t' := TallyOf(s');
    if e.0 in t.counts {
      assert t'.counts == t.counts[e.0 := t.counts[e.0] + 1];
      assert t'.scores == t.scores;
    } else {
      OccurrencesAbsent(s, e.0);
      assert t'.counts == t.counts[e.0 := 1];
      assert t'.scores == t.scores[e.0 := e.1];
    }
  }

  /**
   * One pass over the stream.  It succeeds exactly when every sample is
   * consistent, with the reference tally; otherwise it reports the first
   * inconsistent sample together with the score it was compared with.
   */
  method Accumulate<L(==)>(samples: seq<Sample<L>>) returns (r: Result<Tally<L>, Fault>)
    ensures r.Success? <==> forall i :: 0 <= i < |samples| ==> ConsistentAt(samples, i)
    ensures r.Success? ==> r.value == TallyOf(samples)
    ensures r.Failure? ==>
      r.error.InconsistentScore? && r.error.index < |samples| &&
      !ConsistentAt(samples, r.error.index) &&
      (forall j :: 0 <= j < r.error.index ==> ConsistentAt(samples, j)) &&
      r.error.score == samples[r.error.index].1 &&
      r.error.firstScore == FirstScore(samples[..r.error.index], samples[r.error.index].0)
  {
    var counts: map<L, nat> := map[];
    var scores: map<L, real> := map[];
    var actual := 0;
    var i := 0;
    while i < |samples|
      invariant 0 <= i <= |samples|
      invariant Tally(counts, scores, actual) == TallyOf(samples[..i])
      invariant forall j :: 0 <= j < i ==> ConsistentAt(samples, j)
    {
      var (x, score) := samples[i];
      TallySnoc(samples[..i], samples[i]);
      assert samples[..i] + [samples[i]] == samples[..i + 1];
      assert x in counts <==> x in Latents(samples[..i]);
      actual := actual + 1;
      if x in counts {
        counts := counts[x := counts[x] + 1];
        var expected := scores[x];
        if !(Abs(score - expected) < ScoreTol) {
          assert !ConsistentAt(samples, i);
          return Failure(InconsistentScore(i, score, expected));
        }
      } else {
        counts := counts[x := 1];
        scores := scores[x := score];
      }
      i := i + 1;
    }
    assert samples[..i] == samples;
    return Success(Tally(counts, scores, actual));
  }

  /** The number of samples whose latent lies in X. */
  function CountIn<L(==)>(s: seq<Sample<L>>, X: set<L>): nat
  {
    if s == [] then 0
    else CountIn(s[..|s| - 1], X) + (if s[|s| - 1].0 in X then 1 else 0)
  }

  lemma {:induction false} CountInEmpty<L>(s: seq<Sample<L>>)
    ensures CountIn(s, {}) == 0
  {
    if s != [] {
      CountInEmpty(s[..|s| - 1]);
    }
  }

  lemma {:induction false} CountInSplit<L>(s: seq<Sample<L>>, a: L, X: set<L>)
    requires a !in X
    ensures CountIn(s, {a} + X) == Occurrences(s, a) + CountIn(s, X)
  {
    if s != [] {
      CountInSplit(s[..|s| - 1], a, X);
    }
  }

  lemma {:induction false} CountInCovering<L>(s: seq<Sample<L>>, X: set<L>)
    requires Latents(s) <= X
    ensures CountIn(s, X) == |s|
  {
    if s != [] {
      var init := s[..|s| - 1];
      LatentsSnoc(init, s[|s| - 1]);
      assert init + [s[|s| - 1]] == s;
      CountInCovering(init, X);
    }
  }

  /** `order` lists the members of X, each once (the key order of a dictionary). */
  predicate IsListing<L(==)>(order: seq<L>, X: set<L>)
  {
    (forall a, b :: 0 <= a < b < |order| ==> order[a] != order[b]) &&
    (set x | x in order) == X
  }

  function SumCounts<L(==)>(counts: map<L, nat>, order: seq<L>): nat
    requires forall x :: x in order ==> x in counts
  {
    if order == [] then 0 else counts[order[0]] + SumCounts(counts, order[1..])
  }

  lemma {:induction false} SumOccurrences<L>(s: seq<Sample<L>>, order: seq<L>)
    requires forall a, b :: 0 <= a < b < |order| ==> order[a] != order[b]
    requires forall x :: x in order ==> x in Latents(s)
    ensures SumCounts(TallyOf(s).counts, order) == CountIn(s, set x | x in order)
  {
    if order != [] {
      var rest := order[1..];
      SumOccurrences(s, rest);
      assert order[0] !in rest;
      assert TallyOf(s).counts[order[0]] == Occurrences(s, order[0]);
      assert (set x | x in order) == {order[0]} + (set x | x in rest);
      CountInSplit(s, order[0], set x | x in rest);
    } else {
      assert (set x | x in order) == {};
      CountInEmpty(s);
    }
  }

  /**
   * Listing the counts in the order of the latents, as the validation does
   * before ranking them, the counts add up to the number of samples.
   */
  lemma CountsSumToSamples<L>(s: seq<Sample<L>>, order: seq<L>)
    requires IsListing(order, Latents(s))
    ensures SumCounts(TallyOf(s).counts, order) == TallyOf(s).actual == |s|
  {
    SumOccurrences(s, order);
    CountInCovering(s, Latents(s));
  }
}

=== FILE: counting.dfy ===
/**
 * Latent-space sizes: the Bell numbers and the CrossCat count.
 *
 * The reference definitions go through the Stirling numbers of the second
 * kind, S(n, k) = the number of partitions of n labels into k blocks; they
 * are independent of the generator, and the lemmas here connect the two.
 */
module Counting {
  import opened Partitions

  /** Stirling number of the second kind. */
  function Stirling(n: nat, k: nat): nat
  {
    if n == 0 then (if k == 0 then 1 else 0)
    else if k == 0 then 0
    else Stirling(n - 1, k - 1) + k * Stirling(n - 1, k)
  }

  /** Sum of S(n, j) for j in 0..k. */
  function StirlingRowSum(n: nat, k: nat): nat
  {
    (if k == 0 then 0 else StirlingRowSum(n, k - 1)) + Stirling(n, k)
  }

  /** The number of partitions of an n-element set. */
  function Bell(n: nat): nat
  {
    StirlingRowSum(n, n)
  }

  function Pow(b: nat, k: nat): nat
  {
    if k == 0 then 1 else b * Pow(b, k - 1)
  }

  /** Sum of S(c, j) * b^j for j in 0..k. */
  function TouchardSum(c: nat, b: nat, k: nat): nat
  {
    (if k == 0 then 0 else TouchardSum(c, b, k - 1)) + Stirling(c, k) * Pow(b, k)
  }

  /**
   * Reference CrossCat count: the features are split into j kinds in
   * S(c, j) ways, and each kind independently picks one of b row partitions.
   */
  function CrossCatReference(b: nat, c: nat): nat
  {
    TouchardSum(c, b, c)
  }

  /** The Bell numbers as the test file tabulates them. */
  const BellNumbers: seq<nat> := [
    1, 1, 2, 5, 15, 52, 203, 877, 4140, 21147, 115975, 678570, 4213597,
    27644437, 190899322, 1382958545, 10480142147, 82864869804, 682076806159
  ]

  /** Sum of BellNumbers[rows] ^ (number of kinds) over the partitions of the columns. */
  function CountCrossCats(rows: nat, cols: nat): nat
    requires rows < |BellNumbers|
  {
    SumOver(Enumerate(cols), k => Pow(BellNumbers[rows], k))
  }

  /** Sum of f(number of parts) over a sequence of partitions. */
  function SumOver(ps: seq<Partition>, f: nat -> nat): nat
  {
    if ps == [] then 0 else f(|ps[0]|) + SumOver(ps[1..], f)
  }

  /** How many partitions in `ps` have exactly k parts. */
  function CountSize(ps: seq<Partition>, k: nat): nat
  {
    if ps == [] then 0
    else (if |ps[0]| == k then 1 else 0) + CountSize(ps[1..], k)
  }

  // ---------------------------------------------------------------------
  // Counting the generator's output by number of parts

  lemma {:induction false} CountSizeConcat(a: seq<Partition>, b: seq<Partition>, k: nat)
    ensures CountSize(a + b, k) == CountSize(a, k) + CountSize(b, k)
  {
    if a == [] {
      assert a + b == b;
    } else {
      assert (a + b)[1..] == a[1..] + b;
      CountSizeConcat(a[1..], b, k);
    }
  }

  lemma {:induction false} CountSizeUniform(s: seq<Partition>, m: nat, k: nat)
    requires forall i :: 0 <= i < |s| ==> |s[i]| == m
    ensures CountSize(s, k) == if m == k then |s| else 0
  {
    if s != [] {
      CountSizeUniform(s[1..], m, k);
    }
  }

  /** One extension has one more part; the other |p| keep |p| parts. */
  lemma CountSizeExtend(p: Partition, n: nat, k: nat)
    ensures CountSize(Extend(p, n), k)
         == (if |p| + 1 == k then 1 else 0) + (if |p| == k then |p| else 0)
  {
    var e := Extend(p, n);
    var inserts := e[1..];
    assert e == [e[0]] + inserts;
    assert forall i :: 0 <= i < |inserts| ==> |inserts[i]| == |p|;
    CountSizeUniform(inserts, |p|, k);
    CountSizeConcat([e[0]], inserts, k);
  }

  /** The Stirling recurrence, on the generator's extension step. */
  lemma {:induction false} CountSizeExtendAll(ps: seq<Partition>, n: nat, k: nat)
    ensures CountSize(ExtendAll(ps, n), k)
         == (if k >= 1 then CountSize(ps, k - 1) else 0) + k * CountSize(ps, k)
  {
    if ps != [] {
      var p, rest := ps[0], ps[1..];
      var c := |p|;
      assert ExtendAll(ps, n) == Extend(p, n) + ExtendAll(rest, n);
      CountSizeExtendAll(rest, n, k);
      CountSizeConcat(Extend(p, n), ExtendAll(rest, n), k);
      CountSizeExtend(p, n, k);
      hide Extend;
      hide ExtendAll;
      var here := if c == k then 1 else 0;
      var below := if k >= 1 then CountSize(ps, k - 1) else 0;
      var belowRest := if k >= 1 then CountSize(rest, k - 1) else 0;
      assert below == (if c + 1 == k then 1 else 0) + belowRest;
      assert CountSize(ps, k) == here + CountSize(rest, k);
      Distribute(k, here, CountSize(rest, k));
      assert k * here == (if c == k then c else 0);
    }
  }

  lemma Distribute(k: nat, a: nat, b: nat)
    ensures k * (a + b) == k * a + k * b
  {
  }

  /** The generator yields S(n, k) partitions with k parts. */
  lemma {:induction false} EnumerateBySize(n: nat, k: nat)
    ensures CountSize(Enumerate(n), k) == Stirling(n, k)
  {
    if n >= 2 {
      CountSizeExtendAll(Enumerate(n - 1), n, k);
      EnumerateBySize(n - 1, k);
      if k >= 1 {
        EnumerateBySize(n - 1, k - 1);
      }
    } else if n == 1 {
      assert Enumerate(1) == [[[1]]];
    }
  }

  /** No yielded partition of n labels has more than n parts. */
  lemma {:induction false} EnumerateSizeBound(n: nat)
    ensures forall q :: q in Enumerate(n) ==> |q| <= n
  {
    if n >= 2 {
      EnumerateSizeBound(n - 1);
      forall q | q in Enumerate(n)
        ensures |q| <= n
      {
        ExtendAllMember(Enumerate(n - 1), n, q);
        var k :| 0 <= k < |Enumerate(n - 1)| && q in Extend(Enumerate(n - 1)[k], n);
        assert Enumerate(n - 1)[k] in Enumerate(n - 1);
      }
    }
  }

  // ---------------------------------------------------------------------
  // Sums weighted by the number of parts

  /** Sum over k in 0..m of CountSize(ps, k) * f(k). */
  function WeightedBySize(ps: seq<Partition>, f: nat -> nat, m: nat): nat
  {
    (if m == 0 then 0 else WeightedBySize(ps, f, m - 1)) + CountSize(ps, m) * f(m)
  }

  /** Sum over k in 0..m of S(n, k) * f(k). */
  function StirlingWeighted(n: nat, f: nat -> nat, m: nat): nat
  {
    (if m == 0 then 0 else StirlingWeighted(n, f, m - 1)) + Stirling(n, m) * f(m)
  }

  lemma {:induction false} WeightedCons(ps: seq<Partition>, f: nat -> nat, m: nat)
    requires ps != []
    ensures WeightedBySize(ps, f, m)
         == (if |ps[0]| <= m then f(|ps[0]|) else 0) + WeightedBySize(ps[1..], f, m)
  {
    var here := if |ps[0]| == m then 1 else 0;
    assert CountSize(ps, m) * f(m) == here * f(m) + CountSize(ps[1..], m) * f(m);
    if m > 0 {
      WeightedCons(ps, f, m - 1);
    }
  }

  lemma {:induction false} SumOverBySize(ps: seq<Partition>, f: nat -> nat, m: nat)
    requires forall i :: 0 <= i < |ps| ==> |ps[i]| <= m
    ensures SumOver(ps, f) == WeightedBySize(ps, f, m)
  {
    if ps == [] {
      ZeroWeights(f, m);
    } else {
      SumOverBySize(ps[1..], f, m);
      WeightedCons(ps, f, m);
    }
  }

  lemma {:induction false} ZeroWeights(f: nat -> nat, m: nat)
    ensures WeightedBySize([], f, m) == 0
  {
    if m > 0 {
      ZeroWeights(f, m - 1);
    }
  }

  lemma {:induction false} EnumerateWeighted(n: nat, f: nat -> nat, m: nat)
    ensures WeightedBySize(Enumerate(n), f, m) == StirlingWeighted(n, f, m)
  {
    EnumerateBySize(n, m);
    if m > 0 {
      EnumerateWeighted(n, f, m - 1);
    }
  }

  /** Summing f over the generator's output is summing S(n, k) * f(k). */
  lemma SumOverEnumerate(n: nat, f: nat -> nat)
    ensures SumOver(Enumerate(n), f) == StirlingWeighted(n, f, n)
  {
    EnumerateSizeBound(n);
    var ps := Enumerate(n);
    assert forall i :: 0 <= i < |ps| ==> |ps[i]| <= n by {
      forall i | 0 <= i < |ps|
        ensures |ps[i]| <= n
      {
        assert ps[i] in ps;
      }
    }
    SumOverBySize(ps, f, n);
    EnumerateWeighted(n, f, n);
  }

  lemma {:induction false} SumOverOnes(ps: seq<Partition>, f: nat -> nat)
    requires forall k :: f(k) == 1
    ensures SumOver(ps, f) == |ps|
  {
    if ps != [] {
      SumOverOnes(ps[1..], f);
    }
  }

  lemma {:induction false} StirlingWeightedOnes(n: nat, f: nat -> nat, m: nat)
    requires forall k :: f(k) == 1
    ensures StirlingWeighted(n, f, m) == StirlingRowSum(n, m)
  {
    if m > 0 {
      StirlingWeightedOnes(n, f, m - 1);
    }
  }

  lemma {:induction false} StirlingWeightedPowers(c: nat, b: nat, f: nat -> nat, m: nat)
    requires forall k :: f(k) == Pow(b, k)
    ensures StirlingWeighted(c, f, m) == TouchardSum(c, b, m)
  {
    if m > 0 {
      StirlingWeightedPowers(c, b, f, m - 1);
    }
  }

  // ---------------------------------------------------------------------
  // The identities the test relies on

  /** The generator yields exactly Bell(n) partitions. */
  lemma EnumerateCount(n: nat)
    ensures |Enumerate(n)| == Bell(n)
  {
    var one := (k: nat) => 1;
    SumOverOnes(Enumerate(n), one);
    SumOverEnumerate(n, one);
    StirlingWeightedOnes(n, one, n);
  }

  /** The CrossCat count equals the reference sum of S(cols, j) * B^j. */
  lemma CrossCatIdentity(rows: nat, cols: nat)
    requires rows < |BellNumbers|
    ensures CountCrossCats(rows, cols) == CrossCatReference(BellNumbers[rows], cols)
  {
    var b := BellNumbers[rows];
    var f := (k: nat) => Pow(b, k);
    assert CountCrossCats(rows, cols) == SumOver(Enumerate(cols), f);
    SumOverEnumerate(cols, f);
    StirlingWeightedPowers(cols, b, f, cols);
  }

  /** With no columns there is one latent; with one column there are BellNumbers[rows]. */
  lemma CrossCatSmallColumns(rows: nat)
    requires rows < |BellNumbers|
    ensures CountCrossCats(rows, 0) == 1
    ensures CountCrossCats(rows, 1) == BellNumbers[rows]
  {
    CrossCatIdentity(rows, 0);
    CrossCatIdentity(rows, 1);
    assert Stirling(1, 0) == 0 && Stirling(1, 1) == 1;
  }

  lemma {:induction false} TouchardAtOne(c: nat, m: nat)
    ensures TouchardSum(c, 1, m) == StirlingRowSum(c, m)
  {
    PowOne(m);
    if m > 0 {
      TouchardAtOne(c, m - 1);
    }
  }

  lemma {:induction false} PowOne(k: nat)
    ensures Pow(1, k) == 1
  {
    if k > 0 {
      PowOne(k - 1);
    }
  }

  /** With a single row partition available, the CrossCat count is the Bell number. */
  lemma CrossCatOfOneRowPartition(c: nat)
    ensures CrossCatReference(1, c) == Bell(c)
  {
    TouchardAtOne(c, c);
  }
}

=== FILE: generate.dfy ===
/**
 * Synthetic data tables for the enumeration tests.
 *
 * A table has one row per object and one column per feature.  Features are
 * clustered into kinds, and within each kind the objects are clustered into
 * groups; each cell is present with probability `density`, and a present
 * cell holds a value drawn from the sampler of its object's group for that
 * feature.
 *
 * The random choices come from outside the model: the sampled clustering is
 * a `Structure`, `uniform(f, i)` is the uniform draw made for feature f and
 * object i, and `draw(f, g, i)` is the value the sampler of group g of
 * feature f yields at object i.
 */
module Generation {
  import opened Wrappers

  /** A sampled clustering: a kind per feature, and a group per object within each kind. */
  datatype Structure = Structure(featureAssignments: seq<nat>, objectAssignments: seq<seq<nat>>)

  /** The clustering fits a table of the given shape. */
  predicate WellFormed(s: Structure, objects: nat, features: nat)
  {
    && |s.featureAssignments| == features
    && (forall f :: 0 <= f < features ==> s.featureAssignments[f] < |s.objectAssignments|)
    && (forall k :: 0 <= k < |s.objectAssignments| ==> |s.objectAssignments[k]| == objects)
  }

  /** The argument checks, made in this order before anything is drawn. */
  datatype GenerateError =
    | NonPositiveObjectCount(objects: int)
    | NonPositiveFeatureCount(features: int)
    | DensityOutOfRange(density: real)

  /** The group of object i in the kind of feature f. */
  function GroupOf(s: Structure, objects: nat, features: nat, f: nat, i: nat): nat
    requires WellFormed(s, objects, features) && f < features && i < objects
  {
    s.objectAssignments[s.featureAssignments[f]][i]
  }

  /**
   * The cell of object i and feature f: present exactly when its uniform draw
   * falls below the density, and then drawn from its object's group.
   */
  function CellAt<V>(s: Structure, objects: nat, features: nat, density: real,
                     uniform: (nat, nat) -> real, draw: (nat, nat, nat) -> V, i: nat, f: nat): Option<V>
    requires WellFormed(s, objects, features) && f < features && i < objects
  {
    if uniform(f, i) < density then Some(draw(f, GroupOf(s, objects, features, f, i), i)) else None
  }

  /** A table of the given shape. */
  predicate Shaped<V>(table: seq<seq<Option<V>>>, objects: nat, features: nat)
  {
    |table| == objects && forall i :: 0 <= i < objects ==> |table[i]| == features
  }

  /**
   * Generate a table, feature by feature and, within a feature, object by
   * object.  Non-positive counts and a density outside [0, 1] are rejected;
   * otherwise every cell is the one its draws determine.
   */
  method GenerateRows<V>(objects: int, features: int, density: real, s: Structure,
                         uniform: (nat, nat) -> real, draw: (nat, nat, nat) -> V)
    returns (r: Result<seq<seq<Option<V>>>, GenerateError>)
    requires objects > 0 && features > 0 ==> WellFormed(s, objects, features)
    ensures objects <= 0 ==> r == Failure(NonPositiveObjectCount(objects))
    ensures objects > 0 && features <= 0 ==> r == Failure(NonPositiveFeatureCount(features))
    ensures objects > 0 && features > 0 && !(0.0 <= density <= 1.0) ==> r == Failure(DensityOutOfRange(density))
    ensures r.Success? <==> objects > 0 && features > 0 && 0.0 <= density <= 1.0
    ensures r.Success? ==>
      Shaped(r.value, objects, features) &&
      forall i, f :: 0 <= i < objects && 0 <= f < features ==>
        r.value[i][f] == CellAt(s, objects, features, density, uniform, draw, i, f)
  {
    if objects <= 0 {
      return Failure(NonPositiveObjectCount(objects));
    }
    if features <= 0 {
      return Failure(NonPositiveFeatureCount(features));
    }
    if !(0.0 <= density <= 1.0) {
      return Failure(DensityOutOfRange(density));
    }
    var table: seq<seq<Option<V>>> := seq(objects, _ => seq(features, _ => None));
    var f := 0;
    while f < features
      invariant 0 <= f <= features
      invariant Shaped(table, objects, features)
      invariant forall i, g :: 0 <= i < objects && 0 <= g < f ==>
        table[i][g] == CellAt(s, objects, features, density, uniform, draw, i, g)
      invariant forall i, g :: 0 <= i < objects && f <= g < features ==> table[i][g] == None
    {
      var assignments := s.objectAssignments[s.featureAssignments[f]];
      var i := 0;
      while i < |assignments|
        invariant 0 <= i <= objects == |assignments|
        invariant Shaped(table, objects, features)
        invariant forall j, g :: 0 <= j < objects && 0 <= g < f ==>
          table[j][g] == CellAt(s, objects, features, density, uniform, draw, j, g)
        invariant forall j :: 0 <= j < i ==> table[j][f] == CellAt(s, objects, features, density, uniform, draw, j, f)
        invariant forall j, g :: 0 <= j < objects && f <= g < features && (g > f || j >= i) ==> table[j][g] == None
      {
        if uniform(f, i) < density {
          table := table[i := table[i][f := Some(draw(f, assignments[i], i))]];
        }
        i := i + 1;
      }
      f := f + 1;
    }
    return Success(table);
  }

  /** Uniform draws lie in [0, 1). */
  predicate UnitDraws(uniform: (nat, nat) -> real, objects: nat, features: nat)
  {
    forall f, i :: 0 <= f < features && 0 <= i < objects ==> 0.0 <= uniform(f, i) < 1.0
  }

  /** At density 1 every cell of a generated table is present. */
  lemma DensityOneFillsAll<V>(objects: nat, features: nat, s: Structure,
                              uniform: (nat, nat) -> real, draw: (nat, nat, nat) -> V,
                              table: seq<seq<Option<V>>>)
    requires WellFormed(s, objects, features) && UnitDraws(uniform, objects, features)
    requires Shaped(table, objects, features)
    requires forall i, f :: 0 <= i < objects && 0 <= f < features ==>
      table[i][f] == CellAt(s, objects, features, 1.0, uniform, draw, i, f)
    ensures forall i, f :: 0 <= i < objects && 0 <= f < features ==> table[i][f].Some?
  {
  }

  /** At density 0 every cell of a generated table is missing. */
  lemma DensityZeroEmptiesAll<V>(objects: nat, features: nat, s: Structure,
                                 uniform: (nat, nat) -> real, draw: (nat, nat, nat) -> V,
                                 table: seq<seq<Option<V>>>)
    requires WellFormed(s, objects, features) && UnitDraws(uniform, objects, features)
    requires Shaped(table, objects, features)
    requires forall i, f :: 0 <= i < objects && 0 <= f < features ==>
      table[i][f] == CellAt(s, objects, features, 0.0, uniform, draw, i, f)
    ensures forall i, f :: 0 <= i < objects && 0 <= f < features ==> table[i][f].None?
  {
  }

  /**
   * At an intermediate density the table holds both present and missing
   * cells as soon as one draw falls below the density and another does not.
   */
  lemma MixedDensityMixes<V>(objects: nat, features: nat, density: real, s: Structure,
                             uniform: (nat, nat) -> real, draw: (nat, nat, nat) -> V,
                             table: seq<seq<Option<V>>>, i1: nat, f1: nat, i2: nat, f2: nat)
    requires WellFormed(s, objects, features) && Shaped(table, objects, features)
    requires forall i, f :: 0 <= i < objects && 0 <= f < features ==>
      table[i][f] == CellAt(s, objects, features, density, uniform, draw, i, f)
    requires i1 < objects && f1 < features && uniform(f1, i1) < density
    requires i2 < objects && f2 < features && uniform(f2, i2) >= density
    ensures exists i, f :: 0 <= i < objects && 0 <= f < features && table[i][f].Some?
    ensures exists i, f :: 0 <= i < objects && 0 <= f < features && table[i][f].None?
  {
    assert table[i1][f1].Some?;
    assert table[i2][f2].None?;
  }
}

=== FILE: grid.dfy ===
/**
 * Selection of the test-case grid.
 *
 * The categorical and kind inference commands pick (object count, feature
 * count) pairs from the latent-size table whose latent space is small enough,
 * and combine each pair with every feature type and density.  Each case then
 * fixes the posterior-enumeration configuration: ten samples per latent the
 * case can reach, sampled every tenth step, with 32 kind-kernel iterations
 * when kinds are inferred and none otherwise.
 */
module Grid {
  import opened Counting
  import opened LatentSpace
  import opened Validation

  /** A dimension pair: number of objects (rows) and number of features (columns). */
  type Dim = (nat, nat)

  /** Which pairs a command keeps: object count, feature count and its latent space size. */
  type DimFilter = (nat, nat, nat) -> bool

  /** The categorical-inference filter: at least two objects, at least one feature, bounded size. */
  function CatFilter(maxSize: nat): DimFilter
  {
    (o: nat, f: nat, size: nat) => o > 1 && f > 0 && size <= maxSize
  }

  /** The kind-inference filter: at least one object and feature, more than two of them together, bounded size. */
  function KindFilter(maxSize: nat): DimFilter
  {
    (o: nat, f: nat, size: nat) => o > 0 && f > 0 && size <= maxSize && o + f > 2
  }

  /** Lexicographic order on pairs, the order in which the nested comprehension visits them. */
  predicate Before(a: Dim, b: Dim)
  {
    a.0 < b.0 || (a.0 == b.0 && a.1 < b.1)
  }

  predicate StrictlyOrdered(ds: seq<Dim>)
  {
    forall i, j :: 0 <= i < j < |ds| ==> Before(ds[i], ds[j])
  }

  /** Each pair comes before the next one. */
  predicate Chained(ds: seq<Dim>)
  {
    |ds| < 2 || (Before(ds[0], ds[1]) && Chained(ds[1..]))
  }

  /** Ordering neighbours is enough, because the order is transitive. */
  lemma {:induction false} ChainedOrdered(ds: seq<Dim>)
    requires Chained(ds)
    ensures StrictlyOrdered(ds)
  {
    if |ds| >= 2 {
      ChainedOrdered(ds[1..]);
      forall i, j | 0 <= i < j < |ds|
        ensures Before(ds[i], ds[j])
      {
        if i > 0 {
          assert ds[i] == ds[1..][i - 1] && ds[j] == ds[1..][j - 1];
        } else if j > 1 {
          assert ds[1] == ds[1..][0] && ds[j] == ds[1..][j - 1];
        }
      }
    }
  }

  /** The kept pairs of row `o`, from column `f` on. */
  function RowDims(o: nat, f: nat, keep: DimFilter): (r: seq<Dim>)
    requires o < |LatentSizes| && f <= |LatentSizes[o]|
    decreases |LatentSizes[o]| - f
    ensures forall d :: d in r <==>
      d.0 == o && f <= d.1 < |LatentSizes[o]| && keep(d.0, d.1, LatentSizes[o][d.1])
    ensures forall i, j :: 0 <= i < j < |r| ==> r[i].1 < r[j].1
  {
    if f == |LatentSizes[o]| then []
    else
      var rest := RowDims(o, f + 1, keep);
      if keep(o, f, LatentSizes[o][f]) then [(o, f)] + rest else rest
  }

  /** The kept pairs of rows `o` .. the last row of the table, in comprehension order. */
  function TableDims(o: nat, keep: DimFilter): (r: seq<Dim>)
    requires o <= |LatentSizes|
    decreases |LatentSizes| - o
    ensures forall d :: d in r <==>
      o <= d.0 < |LatentSizes| && d.1 < |LatentSizes[d.0]| && keep(d.0, d.1, LatentSizes[d.0][d.1])
    ensures StrictlyOrdered(r)
  {
    if o == |LatentSizes| then []
    else
      var row := RowDims(o, 0, keep);
      var rest := TableDims(o + 1, keep);
      assert forall i :: 0 <= i < |row| ==> row[i] in row;
      assert forall j :: 0 <= j < |rest| ==> rest[j] in rest;
      row + rest
  }

  /** The pairs the categorical inference command tests for the size bound `maxSize`. */
  function InferCatsDims(maxSize: nat): (r: seq<Dim>)
    ensures forall d :: d in r <==>
      d.0 < |LatentSizes| && d.1 < |LatentSizes[d.0]| &&
      d.0 > 1 && d.1 > 0 && LatentSizes[d.0][d.1] <= maxSize
    ensures StrictlyOrdered(r)
  {
    TableDims(0, CatFilter(maxSize))
  }

  /** The pairs the kind inference command tests for the size bound `maxSize`. */
  function InferKindsDims(maxSize: nat): (r: seq<Dim>)
    ensures forall d :: d in r <==>
      d.0 < |LatentSizes| && d.1 < |LatentSizes[d.0]| &&
      d.0 > 0 && d.1 > 0 && LatentSizes[d.0][d.1] <= maxSize && d.0 + d.1 > 2
    ensures StrictlyOrdered(r)
  {
    TableDims(0, KindFilter(maxSize))
  }

  /** Two strictly ordered sequences of pairs with the same members are equal. */
  lemma {:induction false} OrderedUnique(a: seq<Dim>, b: seq<Dim>)
    requires StrictlyOrdered(a) && StrictlyOrdered(b)
    requires forall d :: d in a <==> d in b
    ensures a == b
  {
    assert a == [] <==> b == [] by {
      if a != [] {
        assert a[0] in b;
      }
      if b != [] {
        assert b[0] in a;
      }
    }
    if a != [] {
      assert a[0] == b[0] by {
        assert b[0] in a && a[0] in b;
      }
      forall d | d in a[1..]
        ensures d in b[1..]
      {
        var i :| 1 <= i < |a| && a[i] == d;
        assert d in b;
        var j :| 0 <= j < |b| && b[j] == d;
        assert j != 0 by {
          assert Before(a[0], a[i]);
        }
      }
      forall d | d in b[1..]
        ensures d in a[1..]
      {
        var j :| 1 <= j < |b| && b[j] == d;
        assert d in a;
        var i :| 0 <= i < |a| && a[i] == d;
        assert i != 0 by {
          assert Before(b[0], b[j]);
        }
      }
      OrderedUnique(a[1..], b[1..]);
      assert a == [a[0]] + a[1..];
      assert b == [b[0]] + b[1..];
    }
  }

  /** The pairs the quick categorical test runs: the table entries of size at most 100 that pass its filter. */
  const QuickCatDims: seq<Dim> := [(2, 1), (2, 2), (2, 3), (2, 4), (3, 1), (3, 2), (4, 1), (5, 1)]

  lemma QuickCatMembers()
    ensures forall d :: d in InferCatsDims(100) <==> d in QuickCatDims
  {
    hide InferCatsDims;
    QuickCatSelectedListed();
    assert forall d :: d in QuickCatDims ==> LatentSizes[d.0][d.1] <= 100;
  }

  lemma QuickCatSelectedListed()
    ensures forall d :: d in InferCatsDims(100) ==> d in QuickCatDims
  {
    hide InferCatsDims;
    forall d: Dim | d in InferCatsDims(100)
      ensures d in QuickCatDims
    {
      assert d.0 < |LatentSizes| && d.1 < |LatentSizes[d.0]| && d.0 > 1 && d.1 > 0 && LatentSizes[d.0][d.1] <= 100;
    }
  }

  /** The quick categorical test runs exactly these pairs, in this order. */
  lemma QuickCatCases()
    ensures InferCatsDims(100) == QuickCatDims
  {
    hide InferCatsDims;
    QuickCatMembers();
    ChainedOrdered(QuickCatDims);
    OrderedUnique(InferCatsDims(100), QuickCatDims);
  }

  /** The pairs the quick kind test runs: the table entries of size at most 100 that pass its filter. */
  const QuickKindDims: seq<Dim> := [(1, 2), (1, 3), (1, 4), (1, 5), (2, 1), (2, 2), (2, 3), (2, 4), (3, 1), (3, 2), (4, 1), (5, 1)]

  lemma QuickKindMembers()
    ensures forall d :: d in InferKindsDims(100) <==> d in QuickKindDims
  {
    hide InferKindsDims;
    QuickKindSelectedListed();
    assert forall d :: d in QuickKindDims ==> LatentSizes[d.0][d.1] <= 100;
  }

  lemma QuickKindSelectedListed()
    ensures forall d :: d in InferKindsDims(100) ==> d in QuickKindDims
  {
    hide InferKindsDims;
    forall d: Dim | d in InferKindsDims(100)
      ensures d in QuickKindDims
    {
      assert d.0 < |LatentSizes| && d.1 < |LatentSizes[d.0]| && d.0 > 0 && d.1 > 0 && LatentSizes[d.0][d.1] <= 100;
    }
  }

  /** The quick kind test runs exactly these pairs, in this order. */
  lemma QuickKindCases()
    ensures InferKindsDims(100) == QuickKindDims
  {
    hide InferKindsDims;
    QuickKindMembers();
    ChainedOrdered(QuickKindDims);
    OrderedUnique(InferKindsDims(100), QuickKindDims);
  }

  /** The four feature models a case can use. */
  datatype FeatureType = DD | DPD | GP | NICH

  const FeatureTypes: seq<FeatureType> := [DD, DPD, GP, NICH]

  /** Fractions of observed cells in the synthetic table. */
  const Densities: seq<real> := [1.0, 0.5, 0.0]

  /** One test case: a dimension pair, a feature type, a density and whether kinds are inferred. */
  datatype Case = Case(objects: nat, features: nat, featureType: FeatureType, density: real, inferKinds: bool)

  /**
   * Every combination of a pair, a feature type and a density, the pair
   * varying slowest and the density fastest.
   */
  function Cases(dims: seq<Dim>, inferKinds: bool): (r: seq<Case>)
    ensures |r| == |dims| * |FeatureTypes| * |Densities|
    ensures forall c :: c in r <==>
      (c.objects, c.features) in dims && c.featureType in FeatureTypes &&
      c.density in Densities && c.inferKinds == inferKinds
  {
    if dims == [] then []
    else
      var d := dims[0];
      var here := seq(|FeatureTypes| * |Densities|, k requires 0 <= k < |FeatureTypes| * |Densities| =>
        Case(d.0, d.1, FeatureTypes[k / |Densities|], Densities[k % |Densities|], inferKinds));
      CasesOfDim(d, inferKinds, here);
      here + Cases(dims[1..], inferKinds)
  }

  /** The cases of one pair are exactly its combinations with each feature type and density. */
  lemma CasesOfDim(d: Dim, inferKinds: bool, here: seq<Case>)
    requires |here| == |FeatureTypes| * |Densities|
    requires forall k :: 0 <= k < |here| ==>
      here[k] == Case(d.0, d.1, FeatureTypes[k / |Densities|], Densities[k % |Densities|], inferKinds)
    ensures forall c :: c in here <==>
      (c.objects, c.features) == d && c.featureType in FeatureTypes &&
      c.density in Densities && c.inferKinds == inferKinds
  {
    forall c: Case | (c.objects, c.features) == d && c.featureType in FeatureTypes &&
      c.density in Densities && c.inferKinds == inferKinds
      ensures c in here
    {
      var t :| 0 <= t < |FeatureTypes| && FeatureTypes[t] == c.featureType;
      var s :| 0 <= s < |Densities| && Densities[s] == c.density;
      assert here[t * |Densities| + s] == c;
    }
  }

  /** The posterior-enumeration settings of one case. */
  datatype Config = Config(sampleCount: nat, sampleSkip: nat, iterations: nat)

  /**
   * The configuration of a case, read off the latent-size table at the
   * case's pair (or at one feature when kinds are fixed).
   */
  function CaseConfig(c: Case): (r: Config)
    requires c.objects < |LatentSizes|
    requires c.inferKinds ==> c.features < |LatentSizes[c.objects]|
    ensures r.sampleSkip == 10
    ensures r.iterations > 0 <==> c.inferKinds
    ensures r.sampleCount == 10 * ExpectedLatentCount(c.objects, c.features, c.inferKinds)
  {
    LatentRowsHaveTwoColumns();
    LatentSizesEntry(c.objects, 1);
    CrossCatSmallColumns(c.objects);
    if c.inferKinds then
      LatentSizesEntry(c.objects, c.features);
      Config(10 * LatentSizes[c.objects][c.features], 10, 32)
    else Config(10 * LatentSizes[c.objects][1], 10, 0)
  }

  /** Every row of the latent-size table has a one-feature entry. */
  lemma LatentRowsHaveTwoColumns()
    ensures forall o :: 0 <= o < |LatentSizes| ==> |LatentSizes[o]| >= 2
  {
  }

  /** Every case either command builds satisfies what its configuration needs. */
  lemma SelectedCasesConfigurable(maxSize: nat, inferKinds: bool, c: Case)
    requires c in Cases(if inferKinds then InferKindsDims(maxSize) else InferCatsDims(maxSize), inferKinds)
    ensures c.objects < |LatentSizes| && c.features < |LatentSizes[c.objects]|
    ensures c.objects > 0 && c.features > 0 && c.inferKinds == inferKinds
    ensures LatentSizes[c.objects][c.features] <= maxSize
  {
  }
}

=== FILE: latent.dfy ===
/**
 * Reading a posterior sample message into a latent structure.
 *
 * A sample lists kinds; each kind lists its feature ids and its groups, and
 * each group lists its row ids.  The latent forgets every order: it is the
 * set of kinds, each kind being its set of feature ids together with the set
 * of its groups' row-id sets.  Two samples are the same latent exactly when
 * these sets agree, which is how the validation tells latents apart.
 */
module Latent {
  import opened Partitions
  import opened Counting

  datatype KindMessage = KindMessage(featureIds: seq<nat>, groups: seq<seq<nat>>)
  datatype SampleMessage = SampleMessage(kinds: seq<KindMessage>, score: real)

  /** A kind as the validation sees it: its features and its row clustering. */
  type KindLatent = (set<nat>, set<set<nat>>)
  type LatentStructure = set<KindLatent>

  /** One kind, with every order forgotten. */
  function ParseKind(k: KindMessage): (r: KindLatent)
    ensures forall x :: x in r.0 <==> x in k.featureIds
  {
    (set x | x in k.featureIds, set g | g in k.groups :: set x | x in g)
  }

  /** The parsed row clustering of a kind is the block set of its groups. */
  lemma ParseKindBlocks(k: KindMessage)
    ensures ParseKind(k).1 == Blocks(k.groups)
  {
    forall b | b in Blocks(k.groups)
      ensures b in ParseKind(k).1
    {
      var i :| 0 <= i < |k.groups| && b == Elems(k.groups[i]);
      assert k.groups[i] in k.groups;
    }
  }

  /** The latent structure of a sample: the set of its parsed kinds. */
  function ParseSample(m: SampleMessage): (r: LatentStructure)
    ensures forall k :: k in m.kinds ==> ParseKind(k) in r
    ensures forall x :: x in r ==> exists j :: 0 <= j < |m.kinds| && ParseKind(m.kinds[j]) == x
  {
    set k | k in m.kinds :: ParseKind(k)
  }

  /** A sample with a single kind holding the given features and row clustering. */
  function SingleKind(featureIds: seq<nat>, rows: Partition): SampleMessage
  {
    SampleMessage([KindMessage(featureIds, rows)], 0.0)
  }

  /**
   * Listing the kinds in another order, or repeating one, does not change
   * the latent.
   */
  lemma ParseSampleIgnoresKindOrder(m1: SampleMessage, m2: SampleMessage)
    requires forall k :: k in m1.kinds <==> k in m2.kinds
    ensures ParseSample(m1) == ParseSample(m2)
  {
  }

  /**
   * Within one kind, listing the features, the groups or a group's rows in
   * another order does not change the latent.
   */
  lemma ParseKindIgnoresOrder(k1: KindMessage, k2: KindMessage)
    requires forall x :: x in k1.featureIds <==> x in k2.featureIds
    requires Blocks(k1.groups) == Blocks(k2.groups)
    ensures ParseKind(k1) == ParseKind(k2)
  {
    ParseKindBlocks(k1);
    ParseKindBlocks(k2);
    assert ParseKind(k1).0 == ParseKind(k2).0;
  }

  /**
   * With a single kind, row partitions with different blocks parse to
   * different latents.
   */
  lemma SingleKindLatentsDistinct(featureIds: seq<nat>, p: Partition, q: Partition)
    requires Blocks(p) != Blocks(q)
    ensures ParseSample(SingleKind(featureIds, p)) != ParseSample(SingleKind(featureIds, q))
  {
    var a := ParseKind(KindMessage(featureIds, p));
    var b := ParseKind(KindMessage(featureIds, q));
    ParseKindBlocks(KindMessage(featureIds, p));
    ParseKindBlocks(KindMessage(featureIds, q));
    assert ParseSample(SingleKind(featureIds, p)) == {a};
    assert ParseSample(SingleKind(featureIds, q)) == {b};
  }

  /** The single-kind latents of the first `count` row partitions in `ps`. */
  function SingleKindLatents(featureIds: seq<nat>, ps: seq<Partition>, count: nat): set<LatentStructure>
    requires count <= |ps|
  {
    set i | 0 <= i < count :: ParseSample(SingleKind(featureIds, ps[i]))
  }

  lemma {:induction false} SingleKindLatentsCount(featureIds: seq<nat>, ps: seq<Partition>, count: nat)
    requires count <= |ps| && NoRepeats(ps)
    ensures |SingleKindLatents(featureIds, ps, count)| == count
  {
    if count > 0 {
      var last := ParseSample(SingleKind(featureIds, ps[count - 1]));
      SingleKindLatentsCount(featureIds, ps, count - 1);
      var prev := SingleKindLatents(featureIds, ps, count - 1);
      assert SingleKindLatents(featureIds, ps, count) == prev + {last};
      forall i | 0 <= i < count - 1
        ensures ParseSample(SingleKind(featureIds, ps[i])) != last
      {
        SingleKindLatentsDistinct(featureIds, ps[i], ps[count - 1]);
      }
      assert last !in prev;
    } else {
      assert SingleKindLatents(featureIds, ps, count) == {};
    }
  }

  /**
   * With kinds fixed to one, the row partitions the enumerator yields for n
   * rows parse to Bell(n) distinct latents, one per set partition.
   */
  lemma SingleKindLatentSpace(featureIds: seq<nat>, n: nat)
    ensures |SingleKindLatents(featureIds, Enumerate(n), |Enumerate(n)|)| == Bell(n)
  {
    EnumerateNoRepeats(n);
    EnumerateCount(n);
    SingleKindLatentsCount(featureIds, Enumerate(n), |Enumerate(n)|);
  }
}

=== FILE: latent_sizes.dfy ===
/**
 * The dataset-suggestion command and the latent-space size table it printed.
 *
 * For each number of rows (0 .. 16) the command lists the cross-cat latent
 * space sizes for 0, 1, 2, ... columns (at most 12) until a size exceeds the
 * bound, and prints the row only when it holds more than one size.  The test
 * file keeps the output for the bound 10000000 as a constant table; the
 * lemmas at the end prove that the table is exactly that output.
 */
module LatentSpace {
  import opened Counting
  import opened StirlingTable

  /** Largest number of rows the suggestion command considers. */
  const MaxRows: nat := 16
  /** Largest number of columns the suggestion command considers. */
  const MaxCols: nat := 12
  /** The bound the stored table was generated with. */
  const TableBound: nat := 10000000

  /** Row r holds the latent space sizes of datasets with r rows and 0, 1, ... columns. */
  const LatentSizes: seq<seq<nat>> := [
    [1, 1, 2, 5, 15, 52, 203, 877, 4140, 21147, 115975, 678570, 4213597],
    [1, 1, 2, 5, 15, 52, 203, 877, 4140, 21147, 115975, 678570, 4213597],
    [1, 2, 6, 22, 94, 454, 2430, 14214, 89918, 610182, 4412798],
    [1, 5, 30, 205, 1555, 12880, 115155, 1101705],
    [1, 15, 240, 4065, 72465, 1353390],
    [1, 52, 2756, 148772, 8174244],
    [1, 203, 41412, 8489257],
    [1, 877, 770006],
    [1, 4140],
    [1, 21147],
    [1, 115975],
    [1, 678570],
    [1, 4213597]
  ]

  /**
   * The sizes for `rows` rows and `cols`, `cols + 1`, ... columns, stopping
   * before the first size above `maxCount` or after column MaxCols.
   */
  function RowCounts(rows: nat, cols: nat, maxCount: nat): (r: seq<nat>)
    requires rows < |BellNumbers| && cols <= MaxCols + 1
    decreases MaxCols + 1 - cols
    ensures |r| <= MaxCols + 1 - cols
  {
    if cols > MaxCols then []
    else
      var count := CountCrossCats(rows, cols);
      if count > maxCount then [] else [count] + RowCounts(rows, cols + 1, maxCount)
  }

  /**
   * Every listed size is the latent space size for its column count and
   * within the bound, and the row stops early only at a size above the bound.
   */
  lemma {:induction false} RowCountsSpec(rows: nat, cols: nat, maxCount: nat)
    requires rows < |BellNumbers| && cols <= MaxCols + 1
    decreases MaxCols + 1 - cols
    ensures var r := RowCounts(rows, cols, maxCount);
      forall j :: 0 <= j < |r| ==> r[j] == CountCrossCats(rows, cols + j) && r[j] <= maxCount
    ensures var r := RowCounts(rows, cols, maxCount);
      cols + |r| <= MaxCols ==> CountCrossCats(rows, cols + |r|) > maxCount
  {
    hide CountCrossCats;
    if cols <= MaxCols && CountCrossCats(rows, cols) <= maxCount {
      RowCountsSpec(rows, cols + 1, maxCount);
    }
  }

  /** The printed rows for row counts `rows` .. MaxRows. */
  function DatasetRows(rows: nat, maxCount: nat): (r: seq<seq<nat>>)
    requires rows <= MaxRows + 1
    decreases MaxRows + 1 - rows
    ensures |r| <= MaxRows + 1 - rows
  {
    if rows > MaxRows then []
    else
      var counts := RowCounts(rows, 0, maxCount);
      (if |counts| > 1 then [counts] else []) + DatasetRows(rows + 1, maxCount)
  }

  /** `s` is the size row of some row count from `rows` to MaxRows. */
  ghost predicate IsSizeRow(s: seq<nat>, rows: nat, maxCount: nat)
  {
    exists k :: rows <= k <= MaxRows && s == RowCounts(k, 0, maxCount)
  }

  /** Every printed row is the size row of a row count in range, and holds more than one size. */
  lemma {:induction false} DatasetRowsSound(rows: nat, maxCount: nat)
    requires rows <= MaxRows + 1
    decreases MaxRows + 1 - rows
    ensures forall s :: s in DatasetRows(rows, maxCount) ==> |s| > 1 && IsSizeRow(s, rows, maxCount)
  {
    hide CountCrossCats;
    hide RowCounts;
    hide DatasetRows;
    if rows <= MaxRows {
      DatasetRowsSound(rows + 1, maxCount);
      var counts := RowCounts(rows, 0, maxCount);
      if |counts| > 1 {
        DatasetRowsPrinted(rows, maxCount);
      } else {
        DatasetRowsSkipped(rows, maxCount);
      }
      forall s | s in DatasetRows(rows, maxCount)
        ensures |s| > 1 && IsSizeRow(s, rows, maxCount)
      {
        if s in DatasetRows(rows + 1, maxCount) {
          var k :| rows + 1 <= k <= MaxRows && s == RowCounts(k, 0, maxCount);
        } else {
          assert s == counts;
        }
      }
    }
  }

  /** Every size row holding more than one size, for a row count in range, is printed. */
  lemma {:induction false} DatasetRowsComplete(rows: nat, maxCount: nat)
    requires rows <= MaxRows + 1
    decreases MaxRows + 1 - rows
    ensures forall k :: rows <= k <= MaxRows && |RowCounts(k, 0, maxCount)| > 1 ==>
      RowCounts(k, 0, maxCount) in DatasetRows(rows, maxCount)
  {
    hide CountCrossCats;
    hide RowCounts;
    hide DatasetRows;
    if rows <= MaxRows {
      DatasetRowsComplete(rows + 1, maxCount);
      var counts := RowCounts(rows, 0, maxCount);
      if |counts| > 1 {
        DatasetRowsPrinted(rows, maxCount);
      } else {
        DatasetRowsSkipped(rows, maxCount);
      }
    }
  }

  /** The table the suggestion command prints for the bound `maxCount`. */
  function Datasets(maxCount: nat): (r: seq<seq<nat>>)
    ensures |r| <= MaxRows + 1
  {
    DatasetRows(0, maxCount)
  }

  /**
   * A row of sizes that starts at zero columns, stays within the bound and
   * stops exactly where the next size would exceed it is the row the
   * command computes.
   */
  lemma RowCountsUnique(rows: nat, maxCount: nat, row: seq<nat>)
    requires rows < |BellNumbers| && |row| <= MaxCols + 1
    requires forall j :: 0 <= j < |row| ==> row[j] == CountCrossCats(rows, j) && row[j] <= maxCount
    requires |row| <= MaxCols ==> CountCrossCats(rows, |row|) > maxCount
    ensures RowCounts(rows, 0, maxCount) == row
  {
    hide CountCrossCats;
    RowCountsSpec(rows, 0, maxCount);
    var r := RowCounts(rows, 0, maxCount);
    assert |r| == |row|;
  }

  // The cross-cat counts for 1 row partitions and up to 12 columns, one
  // lemma per cell as a proof step of the size table.  Each takes the row
  // count's Bell number as a parameter pinned by its requires, so that the
  // contract states the cell without unfolding the Touchard sum at a literal.

  lemma Touchard0x0(b: nat)
    requires b == 1
    ensures CrossCatReference(b, 0) == 1
  {
    hide Stirling;
    Row0();
    assert CrossCatReference(1, 0) == 1;
  }

  lemma Touchard0x1(b: nat)
    requires b == 1
    ensures CrossCatReference(b, 1) == 1
  {
    hide Stirling;
    Row1();
    FirstColumn(1);
    assert CrossCatReference(1, 1) == 1;
  }

  lemma Touchard0x2(b: nat)
    requires b == 1
    ensures CrossCatReference(b, 2) == 2
  {
    hide Stirling;
    Row2();
    FirstColumn(2);
    assert CrossCatReference(1, 2) == 2;
  }

  lemma Touchard0x3(b: nat)
    requires b == 1
    ensures CrossCatReference(b, 3) == 5
  {
    hide Stirling;
    Row3();
    FirstColumn(3);
    assert CrossCatReference(1, 3) == 5;
  }

  lemma Touchard0x4(b: nat)
    requires b == 1
    ensures CrossCatReference(b, 4) == 15
  {
    hide Stirling;
    Row4();
    FirstColumn(4);
    assert CrossCatReference(1, 4) == 15;
  }

  lemma Touchard0x5(b: nat)
    requires b == 1
    ensures CrossCatReference(b, 5) == 52
  {
    hide Stirling;
    Row5();
    FirstColumn(5);
    assert CrossCatReference(1, 5) == 52;
  }

  lemma Touchard0x6(b: nat)
    requires b == 1
    ensures CrossCatReference(b, 6) == 203
  {
    hide Stirling;
    Row6();
    FirstColumn(6);
    assert CrossCatReference(1, 6) == 203;
  }

  lemma Touchard0x7(b: nat)
    requires b == 1
    ensures CrossCatReference(b, 7) == 877
  {
    hide Stirling;
    Row7();
    FirstColumn(7);
    assert CrossCatReference(1, 7) == 877;
  }

  lemma Touchard0x8(b: nat)
    requires b == 1
    ensures CrossCatReference(b, 8) == 4140
  {
    hide Stirling;
    Row8();
    FirstColumn(8);
    assert CrossCatReference(1, 8) == 4140;
  }

  lemma Touchard0x9(b: nat)
    requires b == 1
    ensures CrossCatReference(b, 9) == 21147
  {
    hide Stirling;
    Row9();
    FirstColumn(9);
    assert CrossCatReference(1, 9) == 21147;
  }

  lemma Touchard0x10(b: nat)
    requires b == 1
    ensures CrossCatReference(b, 10) == 115975
  {
    hide Stirling;
    Row10();
    FirstColumn(10);
    assert CrossCatReference(1, 10) == 115975;
  }

  lemma Touchard0x11(b: nat)
    requires b == 1
    ensures CrossCatReference(b, 11) == 678570
  {
    hide Stirling;
    Row11();
    FirstColumn(11);
    assert CrossCatReference(1, 11) == 678570;
  }

  lemma Touchard0x12(b: nat)
    requires b == 1
    ensures CrossCatReference(b, 12) == 4213597
  {
    hide Stirling;
    Row12();
    FirstColumn(12);
    assert CrossCatReference(1, 12) == 4213597;
  }

  /** Row 0 of the table is what the suggestion loop prints for 0 rows. */
  lemma LatentRow0()
    ensures RowCounts(0, 0, 10000000) == LatentSizes[0]
  {
    hide CountCrossCats;
    hide RowCounts;
    hide CrossCatReference;
    Touchard0x0(1);
    Touchard0x1(1);
    Touchard0x2(1);
    Touchard0x3(1);
    Touchard0x4(1);
    Touchard0x5(1);
    Touchard0x6(1);
    Touchard0x7(1);
    Touchard0x8(1);
    Touchard0x9(1);
    Touchard0x10(1);
    Touchard0x11(1);
    Touchard0x12(1);
    forall c | 0 <= c <= 12
      ensures CountCrossCats(0, c) == CrossCatReference(1, c)
    {
      CrossCatIdentity(0, c);
    }
    RowCountsUnique(0, 10000000, LatentSizes[0]);
  }

  /** Row 1 of the table is what the suggestion loop prints for 1 rows. */
  lemma LatentRow1()
    ensures RowCounts(1, 0, 10000000) == LatentSizes[1]
  {
    hide CountCrossCats;
    hide RowCounts;
    hide CrossCatReference;
    Touchard0x0(1);
    Touchard0x1(1);
    Touchard0x2(1);
    Touchard0x3(1);
    Touchard0x4(1);
    Touchard0x5(1);
    Touchard0x6(1);
    Touchard0x7(1);
    Touchard0x8(1);
    Touchard0x9(1);
    Touchard0x10(1);
    Touchard0x11(1);
    Touchard0x12(1);
    forall c | 0 <= c <= 12
      ensures CountCrossCats(1, c) == CrossCatReference(1, c)
    {
      CrossCatIdentity(1, c);
    }
    RowCountsUnique(1, 10000000, LatentSizes[1]);
  }

  // The cross-cat counts for 2 row partitions and up to 11 columns, one
  // lemma per cell as a proof step of the size table.  Each takes the row
  // count's Bell number as a parameter pinned by its requires, so that the
  // contract states the cell without unfolding the Touchard sum at a literal.

  lemma Touchard2x0(b: nat)
    requires b == 2
    ensures CrossCatReference(b, 0) == 1
  {
    hide Stirling;
    Row0();
    assert CrossCatReference(2, 0) == 1;
  }

  lemma Touchard2x1(b: nat)
    requires b == 2
    ensures CrossCatReference(b, 1) == 2
  {
    hide Stirling;
    Row1();
    FirstColumn(1);
    assert CrossCatReference(2, 1) == 2;
  }

  lemma Touchard2x2(b: nat)
    requires b == 2
    ensures CrossCatReference(b, 2) == 6
  {
    hide Stirling;
    Row2();
    FirstColumn(2);
    assert CrossCatReference(2, 2) == 6;
  }

  lemma Touchard2x3(b: nat)
    requires b == 2
    ensures CrossCatReference(b, 3) == 22
  {
    hide Stirling;
    Row3();
    FirstColumn(3);
    assert CrossCatReference(2, 3) == 22;
  }

  lemma Touchard2x4(b: nat)
    requires b == 2
    ensures CrossCatReference(b, 4) == 94
  {
    hide Stirling;
    Row4();
    FirstColumn(4);
    assert CrossCatReference(2, 4) == 94;
  }

  lemma Touchard2x5(b: nat)
    requires b == 2
    ensures CrossCatReference(b, 5) == 454
  {
    hide Stirling;
    Row5();
    FirstColumn(5);
    assert CrossCatReference(2, 5) == 454;
  }

  lemma Touchard2x6(b: nat)
    requires b == 2
    ensures CrossCatReference(b, 6) == 2430
  {
    hide Stirling;
    Row6();
    FirstColumn(6);
    assert CrossCatReference(2, 6) == 2430;
  }

  lemma Touchard2x7(b: nat)
    requires b == 2
    ensures CrossCatReference(b, 7) == 14214
  {
    hide Stirling;
    Row7();
    FirstColumn(7);
    assert CrossCatReference(2, 7) == 14214;
  }

  lemma Touchard2x8(b: nat)
    requires b == 2
    ensures CrossCatReference(b, 8) == 89918
  {
    hide Stirling;
    Row8();
    FirstColumn(8);
    assert CrossCatReference(2, 8) == 89918;
  }

  lemma Touchard2x9(b: nat)
    requires b == 2
    ensures CrossCatReference(b, 9) == 610182
  {
    hide Stirling;
    Row9();
    FirstColumn(9);
    assert CrossCatReference(2, 9) == 610182;
  }

  lemma Touchard2x10(b: nat)
    requires b == 2
    ensures CrossCatReference(b, 10) == 4412798
  {
    hide Stirling;
    Row10();
    FirstColumn(10);
    assert CrossCatReference(2, 10) == 4412798;
  }

  lemma Touchard2x11(b: nat)
    requires b == 2
    ensures CrossCatReference(b, 11) == 33827974
  {
    hide Stirling;
    Row11();
    FirstColumn(11);
    assert CrossCatReference(2, 11) == 33827974;
  }

  /** Row 2 of the table is what the suggestion loop prints for 2 rows. */
  lemma LatentRow2()
    ensures RowCounts(2, 0, 10000000) == LatentSizes[2]
  {
    hide CountCrossCats;
    hide RowCounts;
    hide CrossCatReference;
    Touchard2x0(2);
    Touchard2x1(2);
    Touchard2x2(2);
    Touchard2x3(2);
    Touchard2x4(2);
    Touchard2x5(2);
    Touchard2x6(2);
    Touchard2x7(2);
    Touchard2x8(2);
    Touchard2x9(2);
    Touchard2x10(2);
    Touchard2x11(2);
    forall c | 0 <= c <= 11
      ensures CountCrossCats(2, c) == CrossCatReference(2, c)
    {
      CrossCatIdentity(2, c);
    }
    RowCountsUnique(2, 10000000, LatentSizes[2]);
  }

  // The cross-cat counts for 5 row partitions and up to 8 columns, one
  // lemma per cell as a proof step of the size table.  Each takes the row
  // count's Bell number as a parameter pinned by its requires, so that the
  // contract states the cell without unfolding the Touchard sum at a literal.

  lemma Touchard3x0(b: nat)
    requires b == 5
    ensures CrossCatReference(b, 0) == 1
  {
    hide Stirling;
    Row0();
    assert CrossCatReference(5, 0) == 1;
  }

  lemma Touchard3x1(b: nat)
    requires b == 5
    ensures CrossCatReference(b, 1) == 5
  {
    hide Stirling;
    Row1();
    FirstColumn(1);
    assert CrossCatReference(5, 1) == 5;
  }

  lemma Touchard3x2(b: nat)
    requires b == 5
    ensures CrossCatReference(b, 2) == 30
  {
    hide Stirling;
    Row2();
    FirstColumn(2);
    assert CrossCatReference(5, 2) == 30;
  }

  lemma Touchard3x3(b: nat)
    requires b == 5
    ensures CrossCatReference(b, 3) == 205
  {
    hide Stirling;
    Row3();
    FirstColumn(3);
    assert CrossCatReference(5, 3) == 205;
  }

  lemma Touchard3x4(b: nat)
    requires b == 5
    ensures CrossCatReference(b, 4) == 1555
  {
    hide Stirling;
    Row4();
    FirstColumn(4);
    assert CrossCatReference(5, 4) == 1555;
  }

  lemma Touchard3x5(b: nat)
    requires b == 5
    ensures CrossCatReference(b, 5) == 12880
  {
    hide Stirling;
    Row5();
    FirstColumn(5);
    assert CrossCatReference(5, 5) == 12880;
  }

  lemma Touchard3x6(b: nat)
    requires b == 5
    ensures CrossCatReference(b, 6) == 115155
  {
    hide Stirling;
    Row6();
    FirstColumn(6);
    assert CrossCatReference(5, 6) == 115155;
  }

  lemma Touchard3x7(b: nat)
    requires b == 5
    ensures CrossCatReference(b, 7) == 1101705
  {
    hide Stirling;
    Row7();
    FirstColumn(7);
    assert CrossCatReference(5, 7) == 1101705;
  }

  lemma Touchard3x8(b: nat)
    requires b == 5
    ensures CrossCatReference(b, 8) == 11202680
  {
    hide Stirling;
    Row8();
    FirstColumn(8);
    assert CrossCatReference(5, 8) == 11202680;
  }

  /** Row 3 of the table is what the suggestion loop prints for 3 rows. */
  lemma LatentRow3()
    ensures RowCounts(3, 0, 10000000) == LatentSizes[3]
  {
    hide CountCrossCats;
    hide RowCounts;
    hide CrossCatReference;
    Touchard3x0(5);
    Touchard3x1(5);
    Touchard3x2(5);
    Touchard3x3(5);
    Touchard3x4(5);
    Touchard3x5(5);
    Touchard3x6(5);
    Touchard3x7(5);
    Touchard3x8(5);
    forall c | 0 <= c <= 8
      ensures CountCrossCats(3, c) == CrossCatReference(5, c)
    {
      CrossCatIdentity(3, c);
    }
    RowCountsUnique(3, 10000000, LatentSizes[3]);
  }

  // The cross-cat counts for 15 row partitions and up to 6 columns, one
  // lemma per cell as a proof step of the size table.  Each takes the row
  // count's Bell number as a parameter pinned by its requires, so that the
  // contract states the cell without unfolding the Touchard sum at a literal.

  lemma Touchard4x0(b: nat)
    requires b == 15
    ensures CrossCatReference(b, 0) == 1
  {
    hide Stirling;
    Row0();
    assert CrossCatReference(15, 0) == 1;
  }

  lemma Touchard4x1(b: nat)
    requires b == 15
    ensures CrossCatReference(b, 1) == 15
  {
    hide Stirling;
    Row1();
    FirstColumn(1);
    assert CrossCatReference(15, 1) == 15;
  }

  lemma Touchard4x2(b: nat)
    requires b == 15
    ensures CrossCatReference(b, 2) == 240
  {
    hide Stirling;
    Row2();
    FirstColumn(2);
    assert CrossCatReference(15, 2) == 240;
  }

  lemma Touchard4x3(b: nat)
    requires b == 15
    ensures CrossCatReference(b, 3) == 4065
  {
    hide Stirling;
    Row3();
    FirstColumn(3);
    assert CrossCatReference(15, 3) == 4065;
  }

  lemma Touchard4x4(b: nat)
    requires b == 15
    ensures CrossCatReference(b, 4) == 72465
  {
    hide Stirling;
    Row4();
    FirstColumn(4);
    assert CrossCatReference(15, 4) == 72465;
  }

  lemma Touchard4x5(b: nat)
    requires b == 15
    ensures CrossCatReference(b, 5) == 1353390
  {
    hide Stirling;
    Row5();
    FirstColumn(5);
    assert CrossCatReference(15, 5) == 1353390;
  }

  lemma Touchard4x6(b: nat)
    requires b == 15
    ensures CrossCatReference(b, 6) == 26382615
  {
    hide Stirling;
    Row6();
    FirstColumn(6);
    assert CrossCatReference(15, 6) == 26382615;
  }

  /** Row 4 of the table is what the suggestion loop prints for 4 rows. */
  lemma LatentRow4()
    ensures RowCounts(4, 0, 10000000) == LatentSizes[4]
  {
    hide CountCrossCats;
    hide RowCounts;
    hide CrossCatReference;
    Touchard4x0(15);
    Touchard4x1(15);
    Touchard4x2(15);
    Touchard4x3(15);
    Touchard4x4(15);
    Touchard4x5(15);
    Touchard4x6(15);
    forall c | 0 <= c <= 6
      ensures CountCrossCats(4, c) == CrossCatReference(15, c)
    {
      CrossCatIdentity(4, c);
    }
    RowCountsUnique(4, 10000000, LatentSizes[4]);
  }

  // The cross-cat counts for 52 row partitions and up to 5 columns, one
  // lemma per cell as a proof step of the size table.  Each takes the row
  // count's Bell number as a parameter pinned by its requires, so that the
  // contract states the cell without unfolding the Touchard sum at a literal.

  lemma Touchard5x0(b: nat)
    requires b == 52
    ensures CrossCatReference(b, 0) == 1
  {
    hide Stirling;
    Row0();
    assert CrossCatReference(52, 0) == 1;
  }

  lemma Touchard5x1(b: nat)
    requires b == 52
    ensures CrossCatReference(b, 1) == 52
  {
    hide Stirling;
    Row1();
    FirstColumn(1);
    assert CrossCatReference(52, 1) == 52;
  }

  lemma Touchard5x2(b: nat)
    requires b == 52
    ensures CrossCatReference(b, 2) == 2756
  {
    hide Stirling;
    Row2();
    FirstColumn(2);
    assert CrossCatReference(52, 2) == 2756;
  }

  lemma Touchard5x3(b: nat)
    requires b == 52
    ensures CrossCatReference(b, 3) == 148772
  {
    hide Stirling;
    Row3();
    FirstColumn(3);
    assert CrossCatReference(52, 3) == 148772;
  }

  lemma Touchard5x4(b: nat)
    requires b == 52
    ensures CrossCatReference(b, 4) == 8174244
  {
    hide Stirling;
    Row4();
    FirstColumn(4);
    assert CrossCatReference(52, 4) == 8174244;
  }

  lemma Touchard5x5(b: nat)
    requires b == 52
    ensures CrossCatReference(b, 5) == 456876004
  {
    hide Stirling;
    Row5();
    FirstColumn(5);
    assert CrossCatReference(52, 5) == 456876004;
  }

  /** Row 5 of the table is what the suggestion loop prints for 5 rows. */
  lemma LatentRow5()
    ensures RowCounts(5, 0, 10000000) == LatentSizes[5]
  {
    hide CountCrossCats;
    hide RowCounts;
    hide CrossCatReference;
    Touchard5x0(52);
    Touchard5x1(52);
    Touchard5x2(52);
    Touchard5x3(52);
    Touchard5x4(52);
    Touchard5x5(52);
    forall c | 0 <= c <= 5
      ensures CountCrossCats(5, c) == CrossCatReference(52, c)
    {
      CrossCatIdentity(5, c);
    }
    RowCountsUnique(5, 10000000, LatentSizes[5]);
  }

  // The cross-cat counts for 203 row partitions and up to 4 columns, one
  // lemma per cell as a proof step of the size table.  Each takes the row
  // count's Bell number as a parameter pinned by its requires, so that the
  // contract states the cell without unfolding the Touchard sum at a literal.

  lemma Touchard6x0(b: nat)
    requires b == 203
    ensures CrossCatReference(b, 0) == 1
  {
    hide Stirling;
    Row0();
    assert CrossCatReference(203, 0) == 1;
  }

  lemma Touchard6x1(b: nat)
    requires b == 203
    ensures CrossCatReference(b, 1) == 203
  {
    hide Stirling;
    Row1();
    FirstColumn(1);
    assert CrossCatReference(203, 1) == 203;
  }

  lemma Touchard6x2(b: nat)
    requires b == 203
    ensures CrossCatReference(b, 2) == 41412
  {
    hide Stirling;
    Row2();
    FirstColumn(2);
    assert CrossCatReference(203, 2) == 41412;
  }

  lemma Touchard6x3(b: nat)
    requires b == 203
    ensures CrossCatReference(b, 3) == 8489257
  {
    hide Stirling;
    Row3();
    FirstColumn(3);
    assert CrossCatReference(203, 3) == 8489257;
  }

  lemma Touchard6x4(b: nat)
    requires b == 203
    ensures CrossCatReference(b, 4) == 1748662909
  {
    hide Stirling;
    Row4();
    FirstColumn(4);
    assert CrossCatReference(203, 4) == 1748662909;
  }

  /** Row 6 of the table is what the suggestion loop prints for 6 rows. */
  lemma LatentRow6()
    ensures RowCounts(6, 0, 10000000) == LatentSizes[6]
  {
    hide CountCrossCats;
    hide RowCounts;
    hide CrossCatReference;
    Touchard6x0(203);
    Touchard6x1(203);
    Touchard6x2(203);
    Touchard6x3(203);
    Touchard6x4(203);
    forall c | 0 <= c <= 4
      ensures CountCrossCats(6, c) == CrossCatReference(203, c)
    {
      CrossCatIdentity(6, c);
    }
    RowCountsUnique(6, 10000000, LatentSizes[6]);
  }

  // The cross-cat counts for 877 row partitions and up to 3 columns, one
  // lemma per cell as a proof step of the size table.  Each takes the row
  // count's Bell number as a parameter pinned by its requires, so that the
  // contract states the cell without unfolding the Touchard sum at a literal.

  lemma Touchard7x0(b: nat)
    requires b == 877
    ensures CrossCatReference(b, 0) == 1
  {
    hide Stirling;
    Row0();
    assert CrossCatReference(877, 0) == 1;
  }

  lemma Touchard7x1(b: nat)
    requires b == 877
    ensures CrossCatReference(b, 1) == 877
  {
    hide Stirling;
    Row1();
    FirstColumn(1);
    assert CrossCatReference(877, 1) == 877;
  }

  lemma Touchard7x2(b: nat)
    requires b == 877
    ensures CrossCatReference(b, 2) == 770006
  {
    hide Stirling;
    Row2();
    FirstColumn(2);
    assert CrossCatReference(877, 2) == 770006;
  }

  lemma Touchard7x3(b: nat)
    requires b == 877
    ensures CrossCatReference(b, 3) == 676834397
  {
    hide Stirling;
    Row3();
    FirstColumn(3);
    assert CrossCatReference(877, 3) == 676834397;
  }

  /** Row 7 of the table is what the suggestion loop prints for 7 rows. */
  lemma LatentRow7()
    ensures RowCounts(7, 0, 10000000) == LatentSizes[7]
  {
    hide CountCrossCats;
    hide RowCounts;
    hide CrossCatReference;
    Touchard7x0(877);
    Touchard7x1(877);
    Touchard7x2(877);
    Touchard7x3(877);
    forall c | 0 <= c <= 3
      ensures CountCrossCats(7, c) == CrossCatReference(877, c)
    {
      CrossCatIdentity(7, c);
    }
    RowCountsUnique(7, 10000000, LatentSizes[7]);
  }

  // The cross-cat counts for 4140 row partitions and up to 2 columns, one
  // lemma per cell as a proof step of the size table.  Each takes the row
  // count's Bell number as a parameter pinned by its requires, so that the
  // contract states the cell without unfolding the Touchard sum at a literal.

  lemma Touchard8x0(b: nat)
    requires b == 4140
    ensures CrossCatReference(b, 0) == 1
  {
    hide Stirling;
    Row0();
    assert CrossCatReference(4140, 0) == 1;
  }

  lemma Touchard8x1(b: nat)
    requires b == 4140
    ensures CrossCatReference(b, 1) == 4140
  {
    hide Stirling;
    Row1();
    FirstColumn(1);
    assert CrossCatReference(4140, 1) == 4140;
  }

  lemma Touchard8x2(b: nat)
    requires b == 4140
    ensures CrossCatReference(b, 2) == 17143740
  {
    hide Stirling;
    Row2();
    FirstColumn(2);
    assert CrossCatReference(4140, 2) == 17143740;
  }

  /** Row 8 of the table is what the suggestion loop prints for 8 rows. */
  lemma LatentRow8()
    ensures RowCounts(8, 0, 10000000) == LatentSizes[8]
  {
    hide CountCrossCats;
    hide RowCounts;
    hide CrossCatReference;
    Touchard8x0(4140);
    Touchard8x1(4140);
    Touchard8x2(4140);
    forall c | 0 <= c <= 2
      ensures CountCrossCats(8, c) == CrossCatReference(4140, c)
    {
      CrossCatIdentity(8, c);
    }
    RowCountsUnique(8, 10000000, LatentSizes[8]);
  }

  // The cross-cat counts for 21147 row partitions and up to 2 columns, one
  // lemma per cell as a proof step of the size table.  Each takes the row
  // count's Bell number as a parameter pinned by its requires, so that the
  // contract states the cell without unfolding the Touchard sum at a literal.

  lemma Touchard9x0(b: nat)
    requires b == 21147
    ensures CrossCatReference(b, 0) == 1
  {
    hide Stirling;
    Row0();
    assert CrossCatReference(21147, 0) == 1;
  }

  lemma Touchard9x1(b: nat)
    requires b == 21147
    ensures CrossCatReference(b, 1) == 21147
  {
    hide Stirling;
    Row1();
    FirstColumn(1);
    assert CrossCatReference(21147, 1) == 21147;
  }

  lemma Touchard9x2(b: nat)
    requires b == 21147
    ensures CrossCatReference(b, 2) == 447216756
  {
    hide Stirling;
    Row2();
    FirstColumn(2);
    assert CrossCatReference(21147, 2) == 447216756;
  }

  /** Row 9 of the table is what the suggestion loop prints for 9 rows. */
  lemma LatentRow9()
    ensures RowCounts(9, 0, 10000000) == LatentSizes[9]
  {
    hide CountCrossCats;
    hide RowCounts;
    hide CrossCatReference;
    Touchard9x0(21147);
    Touchard9x1(21147);
    Touchard9x2(21147);
    forall c | 0 <= c <= 2
      ensures CountCrossCats(9, c) == CrossCatReference(21147, c)
    {
      CrossCatIdentity(9, c);
    }
    RowCountsUnique(9, 10000000, LatentSizes[9]);
  }

  // The cross-cat counts for 115975 row partitions and up to 2 columns, one
  // lemma per cell as a proof step of the size table.  Each takes the row
  // count's Bell number as a parameter pinned by its requires, so that the
  // contract states the cell without unfolding the Touchard sum at a literal.

  lemma Touchard10x0(b: nat)
    requires b == 115975
    ensures CrossCatReference(b, 0) == 1
  {
    hide Stirling;
    Row0();
    assert CrossCatReference(115975, 0) == 1;
  }

  lemma Touchard10x1(b: nat)
    requires b == 115975
    ensures CrossCatReference(b, 1) == 115975
  {
    hide Stirling;
    Row1();
    FirstColumn(1);
    assert CrossCatReference(115975, 1) == 115975;
  }

  lemma Touchard10x2(b: nat)
    requires b == 115975
    ensures CrossCatReference(b, 2) == 13450316600
  {
    hide Stirling;
    Row2();
    FirstColumn(2);
    assert CrossCatReference(115975, 2) == 13450316600;
  }

  /** Row 10 of the table is what the suggestion loop prints for 10 rows. */
  lemma LatentRow10()
    ensures RowCounts(10, 0, 10000000) == LatentSizes[10]
  {
    hide CountCrossCats;
    hide RowCounts;
    hide CrossCatReference;
    Touchard10x0(115975);
    Touchard10x1(115975);
    Touchard10x2(115975);
    forall c | 0 <= c <= 2
      ensures CountCrossCats(10, c) == CrossCatReference(115975, c)
    {
      CrossCatIdentity(10, c);
    }
    RowCountsUnique(10, 10000000, LatentSizes[10]);
  }

  // The cross-cat counts for 678570 row partitions and up to 2 columns, one
  // lemma per cell as a proof step of the size table.  Each takes the row
  // count's Bell number as a parameter pinned by its requires, so that the
  // contract states the cell without unfolding the Touchard sum at a literal.

  lemma Touchard11x0(b: nat)
    requires b == 678570
    ensures CrossCatReference(b, 0) == 1
  {
    hide Stirling;
    Row0();
    assert CrossCatReference(678570, 0) == 1;
  }

  lemma Touchard11x1(b: nat)
    requires b == 678570
    ensures CrossCatReference(b, 1) == 678570
  {
    hide Stirling;
    Row1();
    FirstColumn(1);
    assert CrossCatReference(678570, 1) == 678570;
  }

  lemma Touchard11x2(b: nat)
    requires b == 678570
    ensures CrossCatReference(b, 2) == 460457923470
  {
    hide Stirling;
    Row2();
    FirstColumn(2);
    assert CrossCatReference(678570, 2) == 460457923470;
  }

  /** Row 11 of the table is what the suggestion loop prints for 11 rows. */
  lemma LatentRow11()
    ensures RowCounts(11, 0, 10000000) == LatentSizes[11]
  {
    hide CountCrossCats;
    hide RowCounts;
    hide CrossCatReference;
    Touchard11x0(678570);
    Touchard11x1(678570);
    Touchard11x2(678570);
    forall c | 0 <= c <= 2
      ensures CountCrossCats(11, c) == CrossCatReference(678570, c)
    {
      CrossCatIdentity(11, c);
    }
    RowCountsUnique(11, 10000000, LatentSizes[11]);
  }

  // The cross-cat counts for 4213597 row partitions and up to 2 columns, one
  // lemma per cell as a proof step of the size table.  Each takes the row
  // count's Bell number as a parameter pinned by its requires, so that the
  // contract states the cell without unfolding the Touchard sum at a literal.

  lemma Touchard12x0(b: nat)
    requires b == 4213597
    ensures CrossCatReference(b, 0) == 1
  {
    hide Stirling;
    Row0();
    assert CrossCatReference(4213597, 0) == 1;
  }

  lemma Touchard12x1(b: nat)
    requires b == 4213597
    ensures CrossCatReference(b, 1) == 4213597
  {
    hide Stirling;
    Row1();
    FirstColumn(1);
    assert CrossCatReference(4213597, 1) == 4213597;
  }

  lemma Touchard12x2(b: nat)
    requires b == 4213597
    ensures CrossCatReference(b, 2) == 17754403892006
  {
    hide Stirling;
    Row2();
    FirstColumn(2);
    assert CrossCatReference(4213597, 2) == 17754403892006;
  }

  /** Row 12 of the table is what the suggestion loop prints for 12 rows. */
  lemma LatentRow12()
    ensures RowCounts(12, 0, 10000000) == LatentSizes[12]
  {
    hide CountCrossCats;
    hide RowCounts;
    hide CrossCatReference;
    Touchard12x0(4213597);
    Touchard12x1(4213597);
    Touchard12x2(4213597);
    forall c | 0 <= c <= 2
      ensures CountCrossCats(12, c) == CrossCatReference(4213597, c)
    {
      CrossCatIdentity(12, c);
    }
    RowCountsUnique(12, 10000000, LatentSizes[12]);
  }

  /** Every row of the stored table is what the suggestion loop computes for its row count. */
  lemma LatentRowAt(r: nat)
    requires r < |LatentSizes|
    ensures RowCounts(r, 0, TableBound) == LatentSizes[r]
  {
    hide CountCrossCats;
    hide RowCounts;
    if r == 0 {
      LatentRow0();
    } else if r == 1 {
      LatentRow1();
    } else if r == 2 {
      LatentRow2();
    } else if r == 3 {
      LatentRow3();
    } else if r == 4 {
      LatentRow4();
    } else if r == 5 {
      LatentRow5();
    } else if r == 6 {
      LatentRow6();
    } else if r == 7 {
      LatentRow7();
    } else if r == 8 {
      LatentRow8();
    } else if r == 9 {
      LatentRow9();
    } else if r == 10 {
      LatentRow10();
    } else if r == 11 {
      LatentRow11();
    } else {
      LatentRow12();
    }
  }

  /** Every entry of the stored table is the latent space size of its row and column counts. */
  lemma LatentSizesEntry(r: nat, c: nat)
    requires r < |LatentSizes| && c < |LatentSizes[r]|
    ensures LatentSizes[r][c] == CountCrossCats(r, c)
  {
    hide CountCrossCats;
    hide RowCounts;
    LatentRowAt(r);
    RowCountsSpec(r, 0, TableBound);
  }

  /** A row count whose Bell number exceeds the bound prints at most the zero-column size. */
  lemma RowCountsBeyondBound(rows: nat, maxCount: nat)
    requires rows < |BellNumbers| && BellNumbers[rows] > maxCount
    ensures |RowCounts(rows, 0, maxCount)| <= 1
  {
    hide CountCrossCats;
    CrossCatSmallColumns(rows);
    assert RowCounts(rows, 1, maxCount) == [];
  }

  /** A row holding more than one size is printed before the rows after it. */
  lemma DatasetRowsPrinted(rows: nat, maxCount: nat)
    requires rows <= MaxRows && |RowCounts(rows, 0, maxCount)| > 1
    ensures DatasetRows(rows, maxCount) == [RowCounts(rows, 0, maxCount)] + DatasetRows(rows + 1, maxCount)
  {
    hide CountCrossCats;
    hide RowCounts;
  }

  /** A row holding at most one size is skipped. */
  lemma DatasetRowsSkipped(rows: nat, maxCount: nat)
    requires rows <= MaxRows && |RowCounts(rows, 0, maxCount)| <= 1
    ensures DatasetRows(rows, maxCount) == DatasetRows(rows + 1, maxCount)
  {
    hide CountCrossCats;
    hide RowCounts;
  }

  /** For the stored bound nothing is printed from 13 rows on, since B(13) exceeds it. */
  lemma DatasetRowsTail()
    ensures DatasetRows(13, TableBound) == []
  {
    hide CountCrossCats;
    hide RowCounts;
    hide DatasetRows;
    RowCountsBeyondBound(13, TableBound);
    RowCountsBeyondBound(14, TableBound);
    RowCountsBeyondBound(15, TableBound);
    RowCountsBeyondBound(16, TableBound);
    DatasetRowsSkipped(13, TableBound);
    DatasetRowsSkipped(14, TableBound);
    DatasetRowsSkipped(15, TableBound);
    DatasetRowsSkipped(16, TableBound);
    DatasetRowsEnd(TableBound);
  }

  /** Past the last row count nothing is printed. */
  lemma DatasetRowsEnd(maxCount: nat)
    ensures DatasetRows(MaxRows + 1, maxCount) == []
  {
  }

  /** From row count r on, the command prints exactly the stored rows from r on. */
  lemma {:induction false} DatasetRowsSuffix(r: nat)
    requires r <= |LatentSizes|
    decreases |LatentSizes| - r
    ensures DatasetRows(r, TableBound) == LatentSizes[r..]
  {
    hide CountCrossCats;
    hide RowCounts;
    hide DatasetRows;
    if r == |LatentSizes| {
      DatasetRowsTail();
    } else {
      DatasetRowsSuffix(r + 1);
      LatentRowAt(r);
      assert |LatentSizes[r]| > 1;
      DatasetRowsPrinted(r, TableBound);
      assert LatentSizes[r..] == [LatentSizes[r]] + LatentSizes[r + 1..];
    }
  }

  /** The stored table is exactly what the suggestion command prints for the bound 10000000. */
  lemma DatasetsMatchLatentSizes()
    ensures Datasets(TableBound) == LatentSizes
  {
    DatasetRowsSuffix(0);
  }
}

=== FILE: partitions.dfy ===
/**
 * The recursive set-partition generator of the posterior-enumeration test.
 *
 * A partition of {1..n} is a sequence of parts, each part a sequence of
 * labels, exactly as the generator builds its tuples of tuples. The
 * partitions of n labels are obtained from those of n - 1 labels: each one
 * either gains n as a new singleton part, or has n appended to one of its
 * existing parts.
 */
module Partitions {

  type Part = seq<nat>
  type Partition = seq<Part>

  /** All partitions of {1..n}, in the order the generator yields them. */
  function Enumerate(n: nat): seq<Partition>
  {
    if n == 0 then [[]]
    else if n == 1 then [[[1]]]
    else ExtendAll(Enumerate(n - 1), n)
  }

  /** The extensions of every partition in `ps`, in order. */
  function ExtendAll(ps: seq<Partition>, n: nat): seq<Partition>
  {
    if ps == [] then [] else Extend(ps[0], n) + ExtendAll(ps[1..], n)
  }

  /** `p` with `n` as a new singleton, then `p` with `n` added to each part. */
  function Extend(p: Partition, n: nat): seq<Partition>
  {
    [p + [[n]]] + seq(|p|, i requires 0 <= i < |p| => Insert(p, i, n))
  }

  /** `p` with `n` appended to its part `i`. */
  function Insert(p: Partition, i: nat, n: nat): Partition
    requires i < |p|
  {
    p[i := p[i] + [n]]
  }

  // ---------------------------------------------------------------------
  // What it means to be a partition

  /** `p` is a set partition of {1..n} written as a sequence of parts. */
  ghost predicate IsPartitionOf(p: Partition, n: nat)
  {
    && (forall i :: 0 <= i < |p| ==> |p[i]| > 0)
    && (forall i, a, b :: 0 <= i < |p| && 0 <= a < b < |p[i]| ==> p[i][a] != p[i][b])
    && (forall i, x :: 0 <= i < |p| && x in p[i] ==> 1 <= x <= n)
    && (forall x :: 1 <= x <= n ==> InSomePart(p, x))
    && (forall i, j, x :: 0 <= i < j < |p| && x in p[i] ==> x !in p[j])
  }

  /** Label `x` belongs to some part of `p`. */
  ghost predicate InSomePart(p: Partition, x: nat)
  {
    exists i :: 0 <= i < |p| && x in p[i]
  }

  function Elems(part: Part): set<nat>
  {
    set x | x in part
  }

  /** The partition as an unordered set of unordered blocks. */
  function Blocks(p: Partition): set<set<nat>>
  {
    set i | 0 <= i < |p| :: Elems(p[i])
  }

  /** A set of blocks that partitions {1..n}. */
  ghost predicate IsSetPartition(blocks: set<set<nat>>, n: nat)
  {
    && {} !in blocks
    && (forall a, b :: a in blocks && b in blocks && a != b ==> a !! b)
    && (forall a, x :: a in blocks && x in a ==> 1 <= x <= n)
    && (forall x :: 1 <= x <= n ==> InSomeBlock(blocks, x))
  }

  ghost predicate InSomeBlock(blocks: set<set<nat>>, x: nat)
  {
    exists a :: a in blocks && x in a
  }

  /** No two yielded partitions have the same blocks. */
  ghost predicate NoRepeats(ps: seq<Partition>)
  {
    forall i, j :: 0 <= i < j < |ps| ==> Blocks(ps[i]) != Blocks(ps[j])
  }

  /** The blocks with `n` removed, dropping a block that held only `n`. */
  function Remove(blocks: set<set<nat>>, n: nat): set<set<nat>>
  {
    set a | a in blocks && a != {n} :: a - {n}
  }

  // ---------------------------------------------------------------------
  // Every yielded sequence is a partition of {1..n}

  lemma SingletonValid(p: Partition, n: nat)
    requires n >= 1 && IsPartitionOf(p, n - 1)
    ensures IsPartitionOf(p + [[n]], n)
  {
    var q := p + [[n]];
    forall x | 1 <= x <= n
      ensures InSomePart(q, x)
    {
      if x == n {
        assert x in q[|p|];
      } else {
        assert InSomePart(p, x);
        var i :| 0 <= i < |p| && x in p[i];
        assert x in q[i];
      }
    }
  }

  lemma InsertValid(p: Partition, i: nat, n: nat)
    requires n >= 1 && IsPartitionOf(p, n - 1) && i < |p|
    ensures IsPartitionOf(Insert(p, i, n), n)
  {
    var q := Insert(p, i, n);
    assert forall j :: 0 <= j < |q| && j != i ==> q[j] == p[j];
    assert q[i] == p[i] + [n];
    forall j, a, b | 0 <= j < |q| && 0 <= a < b < |q[j]|
      ensures q[j][a] != q[j][b]
    {
      if j == i && b == |p[i]| {
        assert p[i][a] in p[i];
      }
    }
    forall x | 1 <= x <= n
      ensures InSomePart(q, x)
    {
      if x == n {
        assert x in q[i];
      } else {
        assert InSomePart(p, x);
        var j :| 0 <= j < |p| && x in p[j];
        assert x in q[j];
      }
    }
    forall a, b, x | 0 <= a < b < |q| && x in q[a]
      ensures x !in q[b]
    {
      if x != n {
        assert x in p[a];
      } else {
        assert n !in p[b];
      }
    }
  }

  /** The extensions of a partition of {1..n-1} are partitions of {1..n}. */
  lemma ExtendValid(p: Partition, n: nat)
    requires n >= 1 && IsPartitionOf(p, n - 1)
    ensures forall q :: q in Extend(p, n) ==> IsPartitionOf(q, n)
  {
    SingletonValid(p, n);
    forall i | 0 <= i < |p|
      ensures IsPartitionOf(Insert(p, i, n), n)
    {
      InsertValid(p, i, n);
    }
  }

  lemma {:induction false} ExtendAllMember(ps: seq<Partition>, n: nat, q: Partition)
    requires q in ExtendAll(ps, n)
    ensures exists k :: 0 <= k < |ps| && q in Extend(ps[k], n)
  {
    if q in Extend(ps[0], n) {
    } else {
      ExtendAllMember(ps[1..], n, q);
      var k :| 0 <= k < |ps[1..]| && q in Extend(ps[1..][k], n);
      assert q in Extend(ps[k + 1], n);
    }
  }

  /** Every yielded sequence of parts is a set partition of {1..n}. */
  lemma {:induction false} EnumerateValid(n: nat)
    ensures forall q :: q in Enumerate(n) ==> IsPartitionOf(q, n)
  {
    if n >= 2 {
      EnumerateValid(n - 1);
      forall q | q in Enumerate(n)
        ensures IsPartitionOf(q, n)
      {
        ExtendAllMember(Enumerate(n - 1), n, q);
        var k :| 0 <= k < |Enumerate(n - 1)| && q in Extend(Enumerate(n - 1)[k], n);
        ExtendValid(Enumerate(n - 1)[k], n);
      }
    } else if n == 1 {
      var q: Partition := [[1]];
      assert Enumerate(1) == [q];
      assert forall x :: 1 <= x <= 1 ==> x in q[0];
    }
  }

  // ---------------------------------------------------------------------
  // No partition is yielded twice

  /** Removing `n` from any extension of `p` gives back the blocks of `p`. */
  lemma RemoveAfterExtend(p: Partition, n: nat, q: Partition)
    requires n >= 1 && IsPartitionOf(p, n - 1) && q in Extend(p, n)
    ensures Remove(Blocks(q), n) == Blocks(p)
  {
    var e := Extend(p, n);
    var k :| 0 <= k < |e| && e[k] == q;
    forall j | 0 <= j < |p|
      ensures n !in Elems(p[j]) && Elems(p[j]) != {n} && Elems(p[j]) - {n} == Elems(p[j])
    {
    }
    if k == 0 {
      assert q == p + [[n]];
      forall b | b in Remove(Blocks(q), n)
        ensures b in Blocks(p)
      {
        var a :| a in Blocks(q) && a != {n} && b == a - {n};
        var j :| 0 <= j < |q| && a == Elems(q[j]);
        if j < |p| {
          assert q[j] == p[j];
        }
      }
      forall b | b in Blocks(p)
        ensures b in Remove(Blocks(q), n)
      {
        var j :| 0 <= j < |p| && b == Elems(p[j]);
        assert q[j] == p[j];
        assert Elems(q[j]) in Blocks(q);
      }
    } else {
      var i := k - 1;
      assert q == Insert(p, i, n);
      assert Elems(q[i]) == Elems(p[i]) + {n};
      assert p[i][0] in Elems(q[i]);
      forall b | b in Remove(Blocks(q), n)
        ensures b in Blocks(p)
      {
        var a :| a in Blocks(q) && a != {n} && b == a - {n};
        var j :| 0 <= j < |q| && a == Elems(q[j]);
        if j == i {
          assert b == Elems(p[i]);
        } else {
          assert q[j] == p[j];
        }
      }
      forall b | b in Blocks(p)
        ensures b in Remove(Blocks(q), n)
      {
        var j :| 0 <= j < |p| && b == Elems(p[j]);
        assert Elems(q[j]) in Blocks(q);
        if j == i {
          assert Elems(q[j]) - {n} == b;
        } else {
          assert q[j] == p[j];
        }
      }
    }
  }

  lemma ExtendNoRepeats(p: Partition, n: nat)
    requires n >= 1 && IsPartitionOf(p, n - 1)
    ensures NoRepeats(Extend(p, n))
  {
    var e := Extend(p, n);
    forall a, b | 0 <= a < b < |e|
      ensures Blocks(e[a]) != Blocks(e[b])
    {
      var j := b - 1;
      var qb := Insert(p, j, n);
      assert e[b] == qb;
      if a == 0 {
        assert {n} == Elems([n]);
        assert {n} in Blocks(e[a]) by {
          assert e[a][|p|] == [n];
        }
        forall c | c in Blocks(qb)
          ensures c != {n}
        {
          var k :| 0 <= k < |qb| && c == Elems(qb[k]);
          var x := p[k][0];
          assert p[k][0] in p[k];
          assert 1 <= x <= n - 1;
          assert x in qb[k] by {
            if k == j {
              assert qb[k] == p[k] + [n];
            } else {
              assert qb[k] == p[k];
            }
          }
          assert x in c && x != n;
        }
      } else {
        var i := a - 1;
        var qa := Insert(p, i, n);
        assert e[a] == qa;
        var c := Elems(qa[i]);
        assert c in Blocks(qa);
        assert p[i][0] in c && n in c;
        forall d | d in Blocks(qb)
          ensures d != c
        {
          var k :| 0 <= k < |qb| && d == Elems(qb[k]);
          if k != j {
            assert qb[k] == p[k];
            assert n !in d;
          } else {
            assert p[i][0] !in p[j];
          }
        }
      }
    }
  }

  lemma {:induction false} ExtendAllNoRepeats(ps: seq<Partition>, n: nat)
    requires n >= 1 && NoRepeats(ps)
    requires forall k :: 0 <= k < |ps| ==> IsPartitionOf(ps[k], n - 1)
    ensures NoRepeats(ExtendAll(ps, n))
  {
    if ps != [] {
      var first := Extend(ps[0], n);
      var rest := ExtendAll(ps[1..], n);
      ExtendNoRepeats(ps[0], n);
      ExtendAllNoRepeats(ps[1..], n);
      var e := first + rest;
      forall a, b | 0 <= a < b < |e|
        ensures Blocks(e[a]) != Blocks(e[b])
      {
        if b < |first| {
          assert e[a] == first[a] && e[b] == first[b];
        } else if a >= |first| {
          assert e[a] == rest[a - |first|] && e[b] == rest[b - |first|];
        } else {
          assert e[a] in first;
          RemoveAfterExtend(ps[0], n, e[a]);
          assert e[b] == rest[b - |first|];
          ExtendAllMember(ps[1..], n, e[b]);
          var k :| 0 <= k < |ps[1..]| && e[b] in Extend(ps[1..][k], n);
          RemoveAfterExtend(ps[k + 1], n, e[b]);
          assert Blocks(ps[0]) != Blocks(ps[k + 1]);
        }
      }
    }
  }

  /** The generator never yields the same set partition twice. */
  lemma {:induction false} EnumerateNoRepeats(n: nat)
    ensures NoRepeats(Enumerate(n))
  {
    if n >= 2 {
      EnumerateNoRepeats(n - 1);
      EnumerateValid(n - 1);
      ExtendAllNoRepeats(Enumerate(n - 1), n);
    }
  }

  // ---------------------------------------------------------------------
  // Every set partition is yielded

  lemma RemoveIsSetPartition(blocks: set<set<nat>>, n: nat)
    requires n >= 1 && IsSetPartition(blocks, n)
    ensures IsSetPartition(Remove(blocks, n), n - 1)
  {
    var r := Remove(blocks, n);
    forall b | b in r
      ensures b != {}
    {
      var a :| a in blocks && a != {n} && b == a - {n};
      assert a != {};
      var y :| y in a;
      if y == n {
        var z :| z in a && z != n;
        assert z in b;
      } else {
        assert y in b;
      }
    }
    forall x | 1 <= x <= n - 1
      ensures InSomeBlock(r, x)
    {
      assert InSomeBlock(blocks, x);
      var a :| a in blocks && x in a;
      assert a - {n} in r;
    }
  }

  lemma ExtendAllContains(ps: seq<Partition>, k: nat, n: nat, q: Partition)
    requires k < |ps| && q in Extend(ps[k], n)
    ensures q in ExtendAll(ps, n)
  {
    if k > 0 {
      ExtendAllContains(ps[1..], k - 1, n, q);
    }
  }

  /** Every set partition of {1..n} is yielded, as some sequence of parts. */
  lemma {:induction false} EnumerateComplete(blocks: set<set<nat>>, n: nat)
    requires IsSetPartition(blocks, n)
    ensures exists q :: q in Enumerate(n) && Blocks(q) == blocks
    decreases n
  {
    if n == 0 {
      assert forall a :: a in blocks ==> a == {};
      assert blocks == {};
      assert Blocks([]) == {};
      assert Enumerate(0)[0] == [];
    } else if n == 1 {
      assert InSomeBlock(blocks, 1);
      var a :| a in blocks && 1 in a;
      assert a == {1};
      assert blocks == {{1}} by {
        forall c | c in blocks
          ensures c == {1}
        {
          assert c != {};
          var y :| y in c;
          assert y == 1;
        }
      }
      var q: Partition := [[1]];
      assert Elems(q[0]) == {1};
      assert Blocks(q) == {{1}};
      assert Enumerate(1)[0] == q;
    } else {
      var r := Remove(blocks, n);
      RemoveIsSetPartition(blocks, n);
      EnumerateComplete(r, n - 1);
      var p :| p in Enumerate(n - 1) && Blocks(p) == r;
      EnumerateValid(n - 1);
      var k :| 0 <= k < |Enumerate(n - 1)| && Enumerate(n - 1)[k] == p;
      var q := ExtendToBlocks(blocks, n, p);
      ExtendAllContains(Enumerate(n - 1), k, n, q);
    }
  }

  /** The extension of `p` whose blocks are `blocks`, when `p` lists them without `n`. */
  lemma ExtendToBlocks(blocks: set<set<nat>>, n: nat, p: Partition) returns (q: Partition)
    requires n >= 1 && IsSetPartition(blocks, n)
    requires IsPartitionOf(p, n - 1) && Blocks(p) == Remove(blocks, n)
    ensures q in Extend(p, n) && Blocks(q) == blocks
  {
    if {n} in blocks {
      q := p + [[n]];
      assert Extend(p, n)[0] == q;
      SingletonBlocks(blocks, n, p);
    } else {
      assert InSomeBlock(blocks, n);
      var b :| b in blocks && n in b;
      assert b - {n} in Remove(blocks, n);
      var i :| 0 <= i < |p| && Elems(p[i]) == b - {n};
      q := Insert(p, i, n);
      assert Extend(p, n)[i + 1] == q;
      InsertBlocks(blocks, n, p, b, i);
    }
  }

  lemma SingletonBlocks(blocks: set<set<nat>>, n: nat, p: Partition)
    requires n >= 1 && IsSetPartition(blocks, n) && {n} in blocks
    requires IsPartitionOf(p, n - 1) && Blocks(p) == Remove(blocks, n)
    ensures Blocks(p + [[n]]) == blocks
  {
    var q := p + [[n]];
    forall a | a in blocks
      ensures a in Blocks(q)
    {
      if a == {n} {
        assert Elems(q[|p|]) == a;
      } else {
        assert a !! {n};
        assert a - {n} in Blocks(p);
        var j :| 0 <= j < |p| && Elems(p[j]) == a - {n};
        assert Elems(q[j]) == a;
      }
    }
    forall c | c in Blocks(q)
      ensures c in blocks
    {
      var j :| 0 <= j < |q| && c == Elems(q[j]);
      if j < |p| {
        assert c in Remove(blocks, n) by {
          assert q[j] == p[j];
        }
        var a :| a in blocks && a != {n} && c == a - {n};
        assert a !! {n};
        assert c == a;
      } else {
        assert q[j] == [n];
        assert Elems([n]) == {n};
      }
    }
  }

  lemma InsertBlocks(blocks: set<set<nat>>, n: nat, p: Partition, b: set<nat>, i: nat)
    requires n >= 1 && IsSetPartition(blocks, n) && b in blocks && n in b
    requires IsPartitionOf(p, n - 1) && Blocks(p) == Remove(blocks, n)
    requires i < |p| && Elems(p[i]) == b - {n}
    ensures Blocks(Insert(p, i, n)) == blocks
  {
    var q := Insert(p, i, n);
    assert q[i] == p[i] + [n];
    assert Elems(p[i] + [n]) == Elems(p[i]) + {n};
    assert Elems(q[i]) == b;
    forall a | a in blocks
      ensures a in Blocks(q)
    {
      if a == b {
        assert Elems(q[i]) == a;
      } else {
        assert n !in a;
        assert a - {n} in Blocks(p);
        var j :| 0 <= j < |p| && Elems(p[j]) == a - {n};
        assert j != i by {
          var y := p[j][0];
          assert y in Elems(p[j]);
          assert y in a;
          assert a !! b;
        }
        assert q[j] == p[j];
        assert Elems(q[j]) == a;
      }
    }
    forall c | c in Blocks(q)
      ensures c in blocks
    {
      var j :| 0 <= j < |q| && c == Elems(q[j]);
      if j != i {
        assert q[j] == p[j];
        assert c in Remove(blocks, n);
        var a :| a in blocks && a != {n} && c == a - {n};
        var y := p[j][0];
        assert y in Elems(p[j]);
        assert y !in Elems(p[i]);
        assert y !in b && y in a;
        assert a !! b;
        assert c == a;
      }
    }
  }
}

=== FILE: ranking.dfy ===
/**
 * Ranking the latents and choosing which of them the goodness-of-fit test
 * looks at.
 *
 * The validation sorts the latents by probability and by count (ascending
 * argsort, then reversed), keeps the first 32 of each, and of the ones
 * ranked by probability keeps only those whose expected count is accurate
 * enough: sample_count * p * (1 - p) >= 1.  The sort order among equal keys
 * is left open: every property here holds for any ascending argsort, and
 * `Argsort` is one such sort.
 */
module Ranking {

  /** How many of the highest-ranked latents are compared. */
  const TruncateCount: nat := 32

  /** The verdict threshold on the goodness-of-fit value. */
  const MinGoodnessOfFit: real := 0.001

  function Min(a: nat, b: nat): nat
  {
    if a < b then a else b
  }

  /**
   * `order` is an argsort of `keys`: a permutation of its indices that lists
   * them by non-decreasing key.
   */
  predicate IsArgsort(keys: seq<real>, order: seq<nat>)
  {
    |order| == |keys| &&
    (forall k :: 0 <= k < |order| ==> order[k] < |keys|) &&
    (forall a, b :: 0 <= a < b < |order| ==> order[a] != order[b]) &&
    (forall j :: 0 <= j < |keys| ==> j in order) &&
    (forall a, b :: 0 <= a < b < |order| ==> keys[order[a]] <= keys[order[b]])
  }

  /** Indices ordered by non-decreasing key, all below |keys|. */
  predicate SortedBy(keys: seq<real>, s: seq<nat>)
  {
    (forall k :: 0 <= k < |s| ==> s[k] < |keys|) &&
    (forall a, b :: 0 <= a < b < |s| ==> keys[s[a]] <= keys[s[b]])
  }

  predicate Distinct(s: seq<nat>)
  {
    forall a, b :: 0 <= a < b < |s| ==> s[a] != s[b]
  }

  /** Put index i after every listed index whose key is not larger (so equal keys keep their order). */
  function InsertIndex(keys: seq<real>, s: seq<nat>, i: nat): (r: seq<nat>)
    requires i < |keys|
    ensures |r| == |s| + 1
    ensures forall x :: x in r <==> x in s || x == i
  {
    if s == [] then [i]
    else if s[0] < |keys| && keys[i] < keys[s[0]] then [i] + s
    else
      var rest := InsertIndex(keys, s[1..], i);
      assert s == [s[0]] + s[1..];
      [s[0]] + rest
  }

  /** Inserting keeps the indices sorted. */
  lemma {:induction false} InsertIndexSorted(keys: seq<real>, s: seq<nat>, i: nat)
    requires i < |keys| && SortedBy(keys, s)
    ensures SortedBy(keys, InsertIndex(keys, s, i))
  {
    var r := InsertIndex(keys, s, i);
    if s != [] && !(keys[i] < keys[s[0]]) {
      var rest := InsertIndex(keys, s[1..], i);
      InsertIndexSorted(keys, s[1..], i);
      assert r == [s[0]] + rest;
      forall x | x in rest
        ensures keys[s[0]] <= keys[x]
      {
        if x != i {
          var k :| 0 <= k < |s[1..]| && s[1..][k] == x;
          assert s[k + 1] == x;
        }
      }
      forall a, b | 0 <= a < b < |r|
        ensures keys[r[a]] <= keys[r[b]]
      {
        if a == 0 {
          assert r[b] == rest[b - 1] && rest[b - 1] in rest;
        } else {
          assert r[a] == rest[a - 1] && r[b] == rest[b - 1];
        }
      }
    } else if s != [] {
      assert r == [i] + s;
      forall a, b | 0 <= a < b < |r|
        ensures keys[r[a]] <= keys[r[b]]
      {
        if a == 0 {
          assert r[b] == s[b - 1] && keys[s[0]] <= keys[s[b - 1]];
        } else {
          assert r[a] == s[a - 1] && r[b] == s[b - 1];
        }
      }
    }
  }

  /** Inserting a new index keeps the indices distinct. */
  lemma {:induction false} InsertIndexDistinct(keys: seq<real>, s: seq<nat>, i: nat)
    requires i < |keys| && Distinct(s) && i !in s
    ensures Distinct(InsertIndex(keys, s, i))
  {
    var r := InsertIndex(keys, s, i);
    if s != [] && !(s[0] < |keys| && keys[i] < keys[s[0]]) {
      var rest := InsertIndex(keys, s[1..], i);
      InsertIndexDistinct(keys, s[1..], i);
      assert r == [s[0]] + rest;
      assert s[0] !in rest;
      forall a, b | 0 <= a < b < |r|
        ensures r[a] != r[b]
      {
        if a == 0 {
          assert r[b] == rest[b - 1];
        } else {
          assert r[a] == rest[a - 1] && r[b] == rest[b - 1];
        }
      }
    } else if s != [] {
      assert r == [i] + s;
      forall a, b | 0 <= a < b < |r|
        ensures r[a] != r[b]
      {
        if a == 0 {
          assert r[b] == s[b - 1];
        } else {
          assert r[a] == s[a - 1] && r[b] == s[b - 1];
        }
      }
    }
  }

  /** Insertion sort of the first n indices. */
  function ArgsortPrefix(keys: seq<real>, n: nat): (r: seq<nat>)
    requires n <= |keys|
    ensures |r| == n && SortedBy(keys, r) && Distinct(r)
    ensures forall x: nat :: x in r <==> x < n
  {
    if n == 0 then []
    else
      var s := ArgsortPrefix(keys, n - 1);
      InsertIndexSorted(keys, s, n - 1);
      InsertIndexDistinct(keys, s, n - 1);
      InsertIndex(keys, s, n - 1)
  }

  /** An ascending argsort: the indices of `keys` ordered by key, equal keys by index. */
  function Argsort(keys: seq<real>): (r: seq<nat>)
    ensures IsArgsort(keys, r)
  {
    ArgsortPrefix(keys, |keys|)
  }

  /** The sequence backwards. */
  function Reverse(s: seq<nat>): (r: seq<nat>)
    ensures |r| == |s|
    ensures forall k :: 0 <= k < |s| ==> r[k] == s[|s| - 1 - k]
  {
    if s == [] then [] else Reverse(s[1..]) + [s[0]]
  }

  /** The argsort reversed and cut after TruncateCount entries. */
  function Top(order: seq<nat>): seq<nat>
  {
    Reverse(order)[..Min(TruncateCount, |order|)]
  }

  /** The top entries rank at least as high as every index left out. */
  lemma TopRanksHighest(keys: seq<real>, order: seq<nat>, i: nat, j: nat)
    requires IsArgsort(keys, order)
    requires i in Top(order) && j < |keys| && j !in Top(order)
    ensures keys[j] <= keys[i]
  {
    var n := |order|;
    var m := Min(TruncateCount, n);
    var t := Top(order);
    var a :| 0 <= a < m && t[a] == i;
    assert i == order[n - 1 - a];
    assert j in order;
    var b :| 0 <= b < n && order[b] == j;
    assert forall k :: n - m <= k < n ==> t[n - 1 - k] == order[k];
    assert b < n - 1 - a;
  }

  /** The top entries are distinct indices of the keys, at most TruncateCount of them. */
  lemma TopShape(keys: seq<real>, order: seq<nat>)
    requires IsArgsort(keys, order)
    ensures |Top(order)| == Min(TruncateCount, |keys|)
    ensures forall k :: 0 <= k < |Top(order)| ==> Top(order)[k] < |keys|
    ensures forall x :: x in Top(order) ==> x < |keys|
    ensures Distinct(Top(order))
  {
    var n := |order|;
    var t := Top(order);
    forall a, b | 0 <= a < b < |t|
      ensures t[a] != t[b]
    {
      assert t[a] == order[n - 1 - a] && t[b] == order[n - 1 - b];
    }
  }

  /** Enough samples that a latent of probability p has a reliable expected count. */
  predicate Accurate(sampleCount: nat, p: real)
  {
    sampleCount as real * p * (1.0 - p) >= 1.0
  }

  /** `r` is `s` with some entries dropped and the rest kept in their order. */
  predicate Subsequence(r: seq<nat>, s: seq<nat>)
    decreases |s|
  {
    if r == [] then true
    else if s == [] then false
    else (r[0] == s[0] && Subsequence(r[1..], s[1..])) || Subsequence(r, s[1..])
  }

  /** The indices of `s`, in order, whose probability is accurate. */
  function KeepAccurate(probs: seq<real>, sampleCount: nat, s: seq<nat>): (r: seq<nat>)
    requires forall k :: 0 <= k < |s| ==> s[k] < |probs|
    ensures Subsequence(r, s)
    ensures |r| <= |s|
    ensures forall k :: 0 <= k < |r| ==> r[k] < |probs|
    ensures forall x :: x in r <==> x in s && Accurate(sampleCount, probs[x])
    ensures Distinct(s) ==> Distinct(r)
  {
    if s == [] then []
    else
      var rest := KeepAccurate(probs, sampleCount, s[1..]);
      assert forall k :: 0 <= k < |rest| ==> rest[k] in rest;
      assert forall k :: 1 <= k < |s| ==> s[k] in s[1..];
      if Accurate(sampleCount, probs[s[0]]) then
        var r := [s[0]] + rest;
        assert r[1..] == rest;
        r
      else rest
  }

  /** The counts as reals, the keys their argsort ranks. */
  function AsReals(counts: seq<nat>): (r: seq<real>)
    ensures |r| == |counts|
    ensures forall k :: 0 <= k < |counts| ==> r[k] == counts[k] as real
  {
    seq(|counts|, k requires 0 <= k < |counts| => counts[k] as real)
  }

  /**
   * The outcome of truncation: the accurate top latents by probability, the
   * top latents by count, the union of both as a set, and whether some
   * latent was left out of the probability ranking.
   */
  datatype Truncation = Truncation(byProb: seq<nat>, byCount: seq<nat>, highest: set<nat>, truncated: bool)

  function Truncate(probs: seq<real>, counts: seq<nat>, sampleCount: nat,
                    probOrder: seq<nat>, countOrder: seq<nat>): (t: Truncation)
    requires |counts| == |probs|
    requires IsArgsort(probs, probOrder) && IsArgsort(AsReals(counts), countOrder)
    ensures |t.byProb| <= TruncateCount
    ensures |t.byCount| == Min(TruncateCount, |counts|)
    ensures forall i :: i in t.byProb ==> i < |probs| && Accurate(sampleCount, probs[i])
    ensures forall i :: i in t.byCount ==> i < |counts|
    ensures forall k :: 0 <= k < |t.byProb| ==> t.byProb[k] < |probs|
    ensures Distinct(t.byProb)
    ensures forall i :: i in Top(probOrder) && i < |probs| && Accurate(sampleCount, probs[i]) ==> i in t.byProb
    ensures forall i :: i in t.byProb ==> i in Top(probOrder)
    ensures Subsequence(t.byProb, Top(probOrder))
    ensures t.byCount == Top(countOrder)
    ensures forall i :: i in t.highest <==> i in t.byProb || i in t.byCount
    ensures t.truncated <==> |t.byProb| < |probs|
  {
    hide IsArgsort;
    hide Top;
    hide KeepAccurate;
    hide Subsequence;
    hide Distinct;
    TopShape(probs, probOrder);
    TopShape(AsReals(counts), countOrder);
    var byProb := KeepAccurate(probs, sampleCount, Top(probOrder));
    var byCount := Top(countOrder);
    Truncation(byProb, byCount, (set i | i in byProb) + (set i | i in byCount), |byProb| < |probs|)
  }

  /**
   * A latent is kept by probability exactly when it is accurate and among
   * the top TruncateCount by probability; every latent kept by probability
   * is at least as probable as every latent outside that top, and every
   * latent kept by count occurs at least as often as every latent left out.
   */
  lemma TruncateRanks(probs: seq<real>, counts: seq<nat>, sampleCount: nat,
                      probOrder: seq<nat>, countOrder: seq<nat>, i: nat, j: nat)
    requires |counts| == |probs|
    requires IsArgsort(probs, probOrder) && IsArgsort(AsReals(counts), countOrder)
    requires j < |probs|
    ensures var t := Truncate(probs, counts, sampleCount, probOrder, countOrder);
      i in t.byProb <==> i in Top(probOrder) && i < |probs| && Accurate(sampleCount, probs[i])
    ensures var t := Truncate(probs, counts, sampleCount, probOrder, countOrder);
      i in t.byProb && j !in Top(probOrder) ==> probs[j] <= probs[i]
    ensures var t := Truncate(probs, counts, sampleCount, probOrder, countOrder);
      i in t.byCount && j !in t.byCount ==> counts[j] <= counts[i]
  {
    var t := Truncate(probs, counts, sampleCount, probOrder, countOrder);
    if i in t.byProb && j !in Top(probOrder) {
      TopRanksHighest(probs, probOrder, i, j);
    }
    if i in t.byCount && j !in t.byCount {
      TopRanksHighest(AsReals(counts), countOrder, i, j);
    }
  }

  /** The verdict on a case that passed the bookkeeping checks. */
  datatype Verdict = Warn | Pass | Fail

  /** The goodness-of-fit statistic: probabilities, counts, total count and whether the list is truncated. */
  type GoodnessOfFit = (seq<real>, seq<nat>, nat, bool) -> real

  function Pick<T>(s: seq<T>, idx: seq<nat>): (r: seq<T>)
    requires forall k :: 0 <= k < |idx| ==> idx[k] < |s|
    ensures |r| == |idx| && forall k :: 0 <= k < |idx| ==> r[k] == s[idx[k]]
  {
    seq(|idx|, k requires 0 <= k < |idx| => s[idx[k]])
  }

  /** The fit statistic of the accurate top latents. */
  function FitOf(probs: seq<real>, counts: seq<nat>, sampleCount: nat, t: Truncation, gof: GoodnessOfFit): real
    requires |counts| == |probs| && forall k :: 0 <= k < |t.byProb| ==> t.byProb[k] < |probs|
  {
    gof(Pick(probs, t.byProb), Pick(counts, t.byProb), sampleCount, t.truncated)
  }

  /**
   * Warn when no latent is accurate (the fit is never computed), otherwise
   * pass exactly when the fit exceeds the threshold.
   */
  function Judge(probs: seq<real>, counts: seq<nat>, sampleCount: nat, t: Truncation, gof: GoodnessOfFit): (v: Verdict)
    requires |counts| == |probs| && forall k :: 0 <= k < |t.byProb| ==> t.byProb[k] < |probs|
    ensures v == Warn <==> t.byProb == []
    ensures t.byProb != [] ==> (v == Pass <==> FitOf(probs, counts, sampleCount, t, gof) > MinGoodnessOfFit)
  {
    if |t.byProb| < 1 then Warn
    else if FitOf(probs, counts, sampleCount, t, gof) > MinGoodnessOfFit then Pass
    else Fail
  }

  /** No latent among the top TruncateCount by probability is accurate. */
  predicate NoneAccurate(probs: seq<real>, sampleCount: nat, order: seq<nat>)
  {
    forall x :: x in Top(order) && x < |probs| ==> !Accurate(sampleCount, probs[x])
  }

  /**
   * Rank, truncate and judge: the case warns exactly when none of its top
   * latents by probability is accurate, and otherwise passes exactly when
   * the fit of the accurate top latents exceeds the threshold.
   */
  function Analyse(probs: seq<real>, counts: seq<nat>, sampleCount: nat,
                   argsort: seq<real> -> seq<nat>, gof: GoodnessOfFit): (v: Verdict)
    requires |counts| == |probs|
    requires IsArgsort(probs, argsort(probs)) && IsArgsort(AsReals(counts), argsort(AsReals(counts)))
    ensures v == Warn <==> NoneAccurate(probs, sampleCount, argsort(probs))
    ensures v != Warn ==> (v == Pass <==>
      FitOf(probs, counts, sampleCount, Truncate(probs, counts, sampleCount, argsort(probs), argsort(AsReals(counts))), gof) > MinGoodnessOfFit)
  {
    var t := Truncate(probs, counts, sampleCount, argsort(probs), argsort(AsReals(counts)));
    TopShape(probs, argsort(probs));
    assert t.byProb != [] ==> t.byProb[0] in t.byProb;
    Judge(probs, counts, sampleCount, t, gof)
  }

  /** A case without accurate latents warns whatever the fit statistic would say. */
  lemma WarnIgnoresFit(probs: seq<real>, counts: seq<nat>, sampleCount: nat, t: Truncation, gof1: GoodnessOfFit, gof2: GoodnessOfFit)
    requires |counts| == |probs| && forall k :: 0 <= k < |t.byProb| ==> t.byProb[k] < |probs|
    requires t.byProb == []
    ensures Judge(probs, counts, sampleCount, t, gof1) == Judge(probs, counts, sampleCount, t, gof2) == Warn
  {
  }
}

=== FILE: rows.dfy ===
/**
 * Encoding of a data table into sparse row messages.
 *
 * Each row becomes one message carrying its position as id, one observed
 * flag per cell, and the present cells' values appended, in column order, to
 * one of three payload lists by type: booleans, counts (integers) or reals.
 * A boolean is also an integer in the source language, so the boolean test
 * comes first; a value of any other type is an error naming the value.
 *
 * The decoder reads the payload back given the value kind of each column;
 * the two round-trip lemmas show that the layout loses nothing.
 */
module Rows {
  import opened Wrappers

  /** The values a cell can hold, as the source language types them. */
  datatype PyValue = PyBool(b: bool) | PyInt(i: int) | PyFloat(x: real) | PyOther(repr: string)

  /** Type tests with the source language's subclassing: every boolean is an integer. */
  predicate IsBool(v: PyValue) { v.PyBool? }
  predicate IsInt(v: PyValue) { v.PyBool? || v.PyInt? }
  predicate IsFloat(v: PyValue) { v.PyFloat? }

  /** A cell of the table: missing, or a value. */
  type Cell = Option<PyValue>

  /** The observed flags and the three payload lists of one row. */
  datatype Payload = Payload(observed: seq<bool>, booleans: seq<bool>, counts: seq<int>, reals: seq<real>)

  const EmptyPayload := Payload([], [], [], [])

  /** One encoded row. */
  datatype SparseRow = SparseRow(id: nat, data: Payload)

  /** A value of a type the encoder does not know, with its row and column. */
  datatype EncodeError = UnknownValueType(row: nat, column: nat, value: PyValue)

  /** The payload list each present value is appended to. */
  datatype ValueKind = BoolKind | CountKind | RealKind

  /** The list a value goes to, booleans taking priority over integers. */
  function KindOf(v: PyValue): (r: Option<ValueKind>)
    ensures r == Some(BoolKind) <==> IsBool(v)
    ensures r == Some(CountKind) <==> IsInt(v) && !IsBool(v)
    ensures r == Some(RealKind) <==> IsFloat(v)
    ensures r == None <==> !IsInt(v) && !IsFloat(v)
  {
    if IsBool(v) then Some(BoolKind)
    else if IsInt(v) then Some(CountKind)
    else if IsFloat(v) then Some(RealKind)
    else None
  }

  predicate Encodable(c: Cell)
  {
    c.None? || KindOf(c.value).Some?
  }

  /** Append one cell to a payload; a failure carries the offending value. */
  function AppendCell(p: Payload, c: Cell): Result<Payload, PyValue>
  {
    match c
    case None => Success(p.(observed := p.observed + [false]))
    case Some(v) =>
      var q := p.(observed := p.observed + [true]);
      if IsBool(v) then Success(q.(booleans := p.booleans + [v.b]))
      else if IsInt(v) then Success(q.(counts := p.counts + [v.i]))
      else if IsFloat(v) then Success(q.(reals := p.reals + [v.x]))
      else Failure(v)
  }

  /** How many present cells go to the given payload list. */
  function PresentOfKind(cells: seq<Cell>, k: ValueKind): nat
  {
    if cells == [] then 0
    else
      var c := cells[|cells| - 1];
      PresentOfKind(cells[..|cells| - 1], k) + (if c.Some? && KindOf(c.value) == Some(k) then 1 else 0)
  }

  /**
   * Encode the cells of one row from left to right.  It fails exactly when
   * some cell holds a value of unknown type, naming the first such column;
   * otherwise there is one observed flag per cell, true exactly for present
   * cells, and each payload list holds one entry per present cell of its kind.
   */
  function EncodeCells(cells: seq<Cell>): (r: Result<Payload, (nat, PyValue)>)
    ensures r.Success? <==> forall k :: 0 <= k < |cells| ==> Encodable(cells[k])
    ensures r.Failure? ==>
      r.error.0 < |cells| && cells[r.error.0] == Some(r.error.1) && !Encodable(cells[r.error.0]) &&
      forall k :: 0 <= k < r.error.0 ==> Encodable(cells[k])
    ensures r.Success? ==>
      |r.value.observed| == |cells| &&
      (forall k :: 0 <= k < |cells| ==> r.value.observed[k] == cells[k].Some?) &&
      |r.value.booleans| == PresentOfKind(cells, BoolKind) &&
      |r.value.counts| == PresentOfKind(cells, CountKind) &&
      |r.value.reals| == PresentOfKind(cells, RealKind)
  {
    if cells == [] then Success(EmptyPayload)
    else
      var n := |cells| - 1;
      var init := cells[..n];
      assert forall k :: 0 <= k < n ==> init[k] == cells[k];
      match EncodeCells(init)
      case Failure(e) => Failure(e)
      case Success(p) =>
        match AppendCell(p, cells[n])
        case Failure(v) => Failure((n, v))
        case Success(q) => Success(q)
  }

  /**
   * What the row encoder emits: the messages produced before it stopped, and
   * the error that stopped it, if any.
   */
  datatype Serialized = Serialized(rows: seq<SparseRow>, error: Option<EncodeError>)

  /**
   * Encode the rows of a table, the first of them with id `first`.  Messages
   * are emitted row by row, so a row holding a value of unknown type ends the
   * stream after the messages of all rows before it, with an error naming
   * that row, its first bad column and the value.
   */
  function SerializeFrom(table: seq<seq<Cell>>, first: nat): (r: Serialized)
    ensures |r.rows| <= |table|
    ensures forall i :: 0 <= i < |r.rows| ==> r.rows[i].id == first + i
  {
    if table == [] then Serialized([], None)
    else
      match EncodeCells(table[0])
      case Failure((column, value)) => Serialized([], Some(UnknownValueType(first, column, value)))
      case Success(p) =>
        var rest := SerializeFrom(table[1..], first + 1);
        var rows := [SparseRow(first, p)] + rest.rows;
        assert forall i :: 0 < i < |rows| ==> rows[i] == rest.rows[i - 1];
        Serialized(rows, rest.error)
  }

  /**
   * The stream stops exactly at the first row that does not encode, and
   * every message before it carries the encoding of its row.
   */
  lemma {:induction false} SerializeFromSpec(table: seq<seq<Cell>>, first: nat)
    ensures var r := SerializeFrom(table, first);
      r.error.None? <==> forall i :: 0 <= i < |table| ==> EncodeCells(table[i]).Success?
    ensures var r := SerializeFrom(table, first);
      r.error.None? ==> |r.rows| == |table|
    ensures var r := SerializeFrom(table, first);
      r.error.Some? ==>
        var e := r.error.value;
        first <= e.row < first + |table| && |r.rows| == e.row - first &&
        EncodeCells(table[e.row - first]) == Failure((e.column, e.value))
    ensures var r := SerializeFrom(table, first);
      forall i :: 0 <= i < |r.rows| ==> EncodeCells(table[i]) == Success(r.rows[i].data)
  {
    hide EncodeCells;
    if table != [] {
      match EncodeCells(table[0])
      case Failure(_) =>
      case Success(p) =>
        var tail := table[1..];
        SerializeFromSpec(tail, first + 1);
        assert forall i :: 0 < i < |table| ==> tail[i - 1] == table[i];
        var rest := SerializeFrom(tail, first + 1);
        var rows := SerializeFrom(table, first).rows;
        assert rows == [SparseRow(first, p)] + rest.rows;
        assert forall i :: 0 < i < |rows| ==> rows[i] == rest.rows[i - 1];
    }
  }

  /** The encoding of a table, with row ids counted from zero. */
  function SerializeRows(table: seq<seq<Cell>>): (r: Serialized)
    ensures r.error.None? <==> forall i :: 0 <= i < |table| ==> EncodeCells(table[i]).Success?
    ensures r.error.None? ==> |r.rows| == |table|
    ensures r.error.Some? ==>
      |r.rows| == r.error.value.row < |table| &&
      EncodeCells(table[r.error.value.row]) == Failure((r.error.value.column, r.error.value.value))
    ensures forall i :: 0 <= i < |r.rows| ==> r.rows[i].id == i && EncodeCells(table[i]) == Success(r.rows[i].data)
  {
    SerializeFromSpec(table, 0);
    SerializeFrom(table, 0)
  }

  /**
   * Undo the last `AppendCell` for a column of kind k: drop the last observed
   * flag and, when it is set, the last entry of that kind's list.
   */
  function Unappend(p: Payload, k: ValueKind): Option<(Payload, Cell)>
    requires p.observed != []
  {
    var q := p.(observed := p.observed[..|p.observed| - 1]);
    if !p.observed[|p.observed| - 1] then Some((q, None))
    else match k
      case BoolKind =>
        if p.booleans == [] then None
        else Some((q.(booleans := p.booleans[..|p.booleans| - 1]), Some(PyBool(p.booleans[|p.booleans| - 1]))))
      case CountKind =>
        if p.counts == [] then None
        else Some((q.(counts := p.counts[..|p.counts| - 1]), Some(PyInt(p.counts[|p.counts| - 1]))))
      case RealKind =>
        if p.reals == [] then None
        else Some((q.(reals := p.reals[..|p.reals| - 1]), Some(PyFloat(p.reals[|p.reals| - 1]))))
  }

  /**
   * Read a payload back given each column's value kind, from the last column
   * to the first.  It fails when the flags and lists do not fit the kinds.
   */
  function Decode(p: Payload, kinds: seq<ValueKind>): Option<seq<Cell>>
    decreases |kinds|
  {
    if kinds == [] then (if p == EmptyPayload then Some([]) else None)
    else if p.observed == [] then None
    else
      var n := |kinds| - 1;
      match Unappend(p, kinds[n])
      case None => None
      case Some((q, c)) =>
        match Decode(q, kinds[..n])
        case None => None
        case Some(cells) => Some(cells + [c])
  }

  /** Appending a cell of kind k and taking it off again gives back the payload and the cell. */
  lemma UnappendAppend(p: Payload, c: Cell, k: ValueKind)
    requires c.None? || KindOf(c.value) == Some(k)
    ensures AppendCell(p, c).Success?
    ensures Unappend(AppendCell(p, c).value, k) == Some((p, c))
  {
    var p' := AppendCell(p, c).value;
    assert p'.observed[..|p'.observed| - 1] == p.observed;
    match c
    case None =>
    case Some(v) =>
      match k
      case BoolKind => assert p'.booleans[..|p'.booleans| - 1] == p.booleans;
      case CountKind => assert p'.counts[..|p'.counts| - 1] == p.counts;
      case RealKind => assert p'.reals[..|p'.reals| - 1] == p.reals;
  }

  /** Whatever `Unappend` takes off, `AppendCell` puts back. */
  lemma AppendUnappend(p: Payload, k: ValueKind, q: Payload, c: Cell)
    requires p.observed != [] && Unappend(p, k) == Some((q, c))
    ensures AppendCell(q, c) == Success(p)
  {
    assert q.observed + [p.observed[|p.observed| - 1]] == p.observed;
    if p.booleans != [] { assert p.booleans[..|p.booleans| - 1] + [p.booleans[|p.booleans| - 1]] == p.booleans; }
    if p.counts != [] { assert p.counts[..|p.counts| - 1] + [p.counts[|p.counts| - 1]] == p.counts; }
    if p.reals != [] { assert p.reals[..|p.reals| - 1] + [p.reals[|p.reals| - 1]] == p.reals; }
  }

  /** Every present cell holds a value of its column's kind. */
  predicate Fits(cells: seq<Cell>, kinds: seq<ValueKind>)
  {
    |cells| == |kinds| &&
    forall k :: 0 <= k < |cells| ==> cells[k].None? || KindOf(cells[k].value) == Some(kinds[k])
  }

  /** Cells that fit their columns encode, and decode back to themselves. */
  lemma {:induction false} DecodeEncode(cells: seq<Cell>, kinds: seq<ValueKind>)
    requires Fits(cells, kinds)
    ensures EncodeCells(cells).Success?
    ensures Decode(EncodeCells(cells).value, kinds) == Some(cells)
  {
    if cells != [] {
      var n := |cells| - 1;
      assert Fits(cells[..n], kinds[..n]);
      DecodeEncode(cells[..n], kinds[..n]);
      var p := EncodeCells(cells[..n]).value;
      UnappendAppend(p, cells[n], kinds[n]);
      assert cells[..n] + [cells[n]] == cells;
    }
  }

  /** A payload that decodes is exactly the encoding of what it decodes to. */
  lemma {:induction false} EncodeDecode(p: Payload, kinds: seq<ValueKind>, cells: seq<Cell>)
    requires Decode(p, kinds) == Some(cells)
    ensures EncodeCells(cells) == Success(p)
    decreases |kinds|
  {
    if kinds != [] {
      var n := |kinds| - 1;
      var (q, c) := Unappend(p, kinds[n]).value;
      var init := Decode(q, kinds[..n]).value;
      EncodeDecode(q, kinds[..n], init);
      AppendUnappend(p, kinds[n], q, c);
      assert cells == init + [c];
      assert cells[..|cells| - 1] == init;
    }
  }

  /**
   * A table whose every row fits the column kinds is emitted in full, and
   * each message decodes back to its row.
   */
  lemma SerializeRowsRoundTrip(table: seq<seq<Cell>>, kinds: seq<ValueKind>)
    requires forall i :: 0 <= i < |table| ==> Fits(table[i], kinds)
    ensures SerializeRows(table).error.None?
    ensures var rows := SerializeRows(table).rows;
      |rows| == |table| &&
      forall i :: 0 <= i < |table| ==> rows[i].id == i && Decode(rows[i].data, kinds) == Some(table[i])
  {
    forall i | 0 <= i < |table|
      ensures EncodeCells(table[i]).Success? && Decode(EncodeCells(table[i]).value, kinds) == Some(table[i])
    {
      DecodeEncode(table[i], kinds);
    }
  }
}

=== FILE: stirling_table.dfy ===
/**
 * Concrete values of the Stirling numbers S(n, k) for n <= 18, and the check
 * that the Bell-number table of the test file lists Bell(0) .. Bell(18).
 *
 * Each row is derived from the previous one by the recurrence alone; the
 * function's definition is hidden inside the row lemmas so that the solver
 * works with the listed values instead of unfolding the recursion.
 */
module StirlingTable {
  import opened Partitions
  import opened Counting

  /** One step of the recurrence, with the two values it reads. */
  lemma Step(n: nat, k: nat, a: nat, b: nat)
    requires n >= 1 && k >= 1 && Stirling(n - 1, k - 1) == a && Stirling(n - 1, k) == b
    ensures Stirling(n, k) == a + k * b
  {
  }

  lemma {:induction false} FirstColumn(n: nat)
    requires n >= 1
    ensures Stirling(n, 0) == 0
  {
  }

  lemma {:induction false} AboveDiagonal(n: nat, k: nat)
    requires k > n
    ensures Stirling(n, k) == 0
  {
    if n > 0 {
      AboveDiagonal(n - 1, k - 1);
      AboveDiagonal(n - 1, k);
    }
  }

  lemma Row0()
    ensures Stirling(0, 0) == 1
  {
  }

  lemma Row1()
    ensures Stirling(1, 1) == 1
  {
  }

  lemma Row2()
    ensures Stirling(2, 1) == 1
    ensures Stirling(2, 2) == 1
  {
    hide Stirling;
    Row1();
    FirstColumn(1);
    AboveDiagonal(1, 2);
    Step(2, 1, 0, 1);
    Step(2, 2, 1, 0);
  }

  lemma Row3()
    ensures Stirling(3, 1) == 1
    ensures Stirling(3, 2) == 3
    ensures Stirling(3, 3) == 1
  {
    hide Stirling;
    Row2();
    FirstColumn(2);
    AboveDiagonal(2, 3);
    Step(3, 1, 0, 1);
    Step(3, 2, 1, 1);
    Step(3, 3, 1, 0);
  }

  lemma Row4()
    ensures Stirling(4, 1) == 1
    ensures Stirling(4, 2) == 7
    ensures Stirling(4, 3) == 6
    ensures Stirling(4, 4) == 1
  {
    hide Stirling;
    Row3();
    FirstColumn(3);
    AboveDiagonal(3, 4);
    Step(4, 1, 0, 1);
    Step(4, 2, 1, 3);
    Step(4, 3, 3, 1);
    Step(4, 4, 1, 0);
  }

  lemma Row5()
    ensures Stirling(5, 1) == 1
    ensures Stirling(5, 2) == 15
    ensures Stirling(5, 3) == 25
    ensures Stirling(5, 4) == 10
    ensures Stirling(5, 5) == 1
  {
    hide Stirling;
    Row4();
    FirstColumn(4);
    AboveDiagonal(4, 5);
    Step(5, 1, 0, 1);
    Step(5, 2, 1, 7);
    Step(5, 3, 7, 6);
    Step(5, 4, 6, 1);
    Step(5, 5, 1, 0);
  }

  lemma Row6()
    ensures Stirling(6, 1) == 1
    ensures Stirling(6, 2) == 31
    ensures Stirling(6, 3) == 90
    ensures Stirling(6, 4) == 65
    ensures Stirling(6, 5) == 15
    ensures Stirling(6, 6) == 1
  {
    hide Stirling;
    Row5();
    FirstColumn(5);
    AboveDiagonal(5, 6);
    Step(6, 1, 0, 1);
    Step(6, 2, 1, 15);
    Step(6, 3, 15, 25);
    Step(6, 4, 25, 10);
    Step(6, 5, 10, 1);
    Step(6, 6, 1, 0);
  }

  lemma Row7()
    ensures Stirling(7, 1) == 1
    ensures Stirling(7, 2) == 63
    ensures Stirling(7, 3) == 301
    ensures Stirling(7, 4) == 350
    ensures Stirling(7, 5) == 140
    ensures Stirling(7, 6) == 21
    ensures Stirling(7, 7) == 1
  {
    hide Stirling;
    Row6();
    FirstColumn(6);
    AboveDiagonal(6, 7);
    Step(7, 1, 0, 1);
    Step(7, 2, 1, 31);
    Step(7, 3, 31, 90);
    Step(7, 4, 90, 65);
    Step(7, 5, 65, 15);
    Step(7, 6, 15, 1);
    Step(7, 7, 1, 0);
  }

  lemma Row8()
    ensures Stirling(8, 1) == 1
    ensures Stirling(8, 2) == 127
    ensures Stirling(8, 3) == 966
    ensures Stirling(8, 4) == 1701
    ensures Stirling(8, 5) == 1050
    ensures Stirling(8, 6) == 266
    ensures Stirling(8, 7) == 28
    ensures Stirling(8, 8) == 1
  {
    hide Stirling;
    Row7();
    FirstColumn(7);
    AboveDiagonal(7, 8);
    Step(8, 1, 0, 1);
    Step(8, 2, 1, 63);
    Step(8, 3, 63, 301);
    Step(8, 4, 301, 350);
    Step(8, 5, 350, 140);
    Step(8, 6, 140, 21);
    Step(8, 7, 21, 1);
    Step(8, 8, 1, 0);
  }

  lemma Row9()
    ensures Stirling(9, 1) == 1
    ensures Stirling(9, 2) == 255
    ensures Stirling(9, 3) == 3025
    ensures Stirling(9, 4) == 7770
    ensures Stirling(9, 5) == 6951
    ensures Stirling(9, 6) == 2646
    ensures Stirling(9, 7) == 462
    ensures Stirling(9, 8) == 36
    ensures Stirling(9, 9) == 1
  {
    hide Stirling;
    Row8();
    FirstColumn(8);
    AboveDiagonal(8, 9);
    Step(9, 1, 0, 1);
    Step(9, 2, 1, 127);
    Step(9, 3, 127, 966);
    Step(9, 4, 966, 1701);
    Step(9, 5, 1701, 1050);
    Step(9, 6, 1050, 266);
    Step(9, 7, 266, 28);
    Step(9, 8, 28, 1);
    Step(9, 9, 1, 0);
  }

  lemma Row10()
    ensures Stirling(10, 1) == 1
    ensures Stirling(10, 2) == 511
    ensures Stirling(10, 3) == 9330
    ensures Stirling(10, 4) == 34105
    ensures Stirling(10, 5) == 42525
    ensures Stirling(10, 6) == 22827
    ensures Stirling(10, 7) == 5880
    ensures Stirling(10, 8) == 750
    ensures Stirling(10, 9) == 45
    ensures Stirling(10, 10) == 1
  {
    hide Stirling;
    Row9();
    FirstColumn(9);
    AboveDiagonal(9, 10);
    Step(10, 1, 0, 1);
    Step(10, 2, 1, 255);
    Step(10, 3, 255, 3025);
    Step(10, 4, 3025, 7770);
    Step(10, 5, 7770, 6951);
    Step(10, 6, 6951, 2646);
    Step(10, 7, 2646, 462);
    Step(10, 8, 462, 36);
    Step(10, 9, 36, 1);
    Step(10, 10, 1, 0);
  }

  lemma Row11()
    ensures Stirling(11, 1) == 1
    ensures Stirling(11, 2) == 1023
    ensures Stirling(11, 3) == 28501
    ensures Stirling(11, 4) == 145750
    ensures Stirling(11, 5) == 246730
    ensures Stirling(11, 6) == 179487
    ensures Stirling(11, 7) == 63987
    ensures Stirling(11, 8) == 11880
    ensures Stirling(11, 9) == 1155
    ensures Stirling(11, 10) == 55
    ensures Stirling(11, 11) == 1
  {
    hide Stirling;
    Row10();
    FirstColumn(10);
    AboveDiagonal(10, 11);
    Step(11, 1, 0, 1);
    Step(11, 2, 1, 511);
    Step(11, 3, 511, 9330);
    Step(11, 4, 9330, 34105);
    Step(11, 5, 34105, 42525);
    Step(11, 6, 42525, 22827);
    Step(11, 7, 22827, 5880);
    Step(11, 8, 5880, 750);
    Step(11, 9, 750, 45);
    Step(11, 10, 45, 1);
    Step(11, 11, 1, 0);
  }

  lemma Row12()
    ensures Stirling(12, 1) == 1
    ensures Stirling(12, 2) == 2047
    ensures Stirling(12, 3) == 86526
    ensures Stirling(12, 4) == 611501
    ensures Stirling(12, 5) == 1379400
    ensures Stirling(12, 6) == 1323652
    ensures Stirling(12, 7) == 627396
    ensures Stirling(12, 8) == 159027
    ensures Stirling(12, 9) == 22275
    ensures Stirling(12, 10) == 1705
    ensures Stirling(12, 11) == 66
    ensures Stirling(12, 12) == 1
  {
    hide Stirling;
    Row11();
    FirstColumn(11);
    AboveDiagonal(11, 12);
    Step(12, 1, 0, 1);
    Step(12, 2, 1, 1023);
    Step(12, 3, 1023, 28501);
    Step(12, 4, 28501, 145750);
    Step(12, 5, 145750, 246730);
    Step(12, 6, 246730, 179487);
    Step(12, 7, 179487, 63987);
    Step(12, 8, 63987, 11880);
    Step(12, 9, 11880, 1155);
    Step(12, 10, 1155, 55);
    Step(12, 11, 55, 1);
    Step(12, 12, 1, 0);
  }

  lemma Row13()
    ensures Stirling(13, 1) == 1
    ensures Stirling(13, 2) == 4095
    ensures Stirling(13, 3) == 261625
    ensures Stirling(13, 4) == 2532530
    ensures Stirling(13, 5) == 7508501
    ensures Stirling(13, 6) == 9321312
    ensures Stirling(13, 7) == 5715424
    ensures Stirling(13, 8) == 1899612
    ensures Stirling(13, 9) == 359502
    ensures Stirling(13, 10) == 39325
    ensures Stirling(13, 11) == 2431
    ensures Stirling(13, 12) == 78
    ensures Stirling(13, 13) == 1
  {
    hide Stirling;
    Row12();
    FirstColumn(12);
    AboveDiagonal(12, 13);
    Step(13, 1, 0, 1);
    Step(13, 2, 1, 2047);
    Step(13, 3, 2047, 86526);
    Step(13, 4, 86526, 611501);
    Step(13, 5, 611501, 1379400);
    Step(13, 6, 1379400, 1323652);
    Step(13, 7, 1323652, 627396);
    Step(13, 8, 627396, 159027);
    Step(13, 9, 159027, 22275);
    Step(13, 10, 22275, 1705);
    Step(13, 11, 1705, 66);
    Step(13, 12, 66, 1);
    Step(13, 13, 1, 0);
  }

  lemma Row14()
    ensures Stirling(14, 1) == 1
    ensures Stirling(14, 2) == 8191
    ensures Stirling(14, 3) == 788970
    ensures Stirling(14, 4) == 10391745
    ensures Stirling(14, 5) == 40075035
    ensures Stirling(14, 6) == 63436373
    ensures Stirling(14, 7) == 49329280
    ensures Stirling(14, 8) == 20912320
    ensures Stirling(14, 9) == 5135130
    ensures Stirling(14, 10) == 752752
    ensures Stirling(14, 11) == 66066
    ensures Stirling(14, 12) == 3367
    ensures Stirling(14, 13) == 91
    ensures Stirling(14, 14) == 1
  {
    hide Stirling;
    Row13();
    FirstColumn(13);
    AboveDiagonal(13, 14);
    Step(14, 1, 0, 1);
    Step(14, 2, 1, 4095);
    Step(14, 3, 4095, 261625);
    Step(14, 4, 261625, 2532530);
    Step(14, 5, 2532530, 7508501);
    Step(14, 6, 7508501, 9321312);
    Step(14, 7, 9321312, 5715424);
    Step(14, 8, 5715424, 1899612);
    Step(14, 9, 1899612, 359502);
    Step(14, 10, 359502, 39325);
    Step(14, 11, 39325, 2431);
    Step(14, 12, 2431, 78);
    Step(14, 13, 78, 1);
    Step(14, 14, 1, 0);
  }

  lemma Row15()
    ensures Stirling(15, 1) == 1
    ensures Stirling(15, 2) == 16383
    ensures Stirling(15, 3) == 2375101
    ensures Stirling(15, 4) == 42355950
    ensures Stirling(15, 5) == 210766920
    ensures Stirling(15, 6) == 420693273
    ensures Stirling(15, 7) == 408741333
    ensures Stirling(15, 8) == 216627840
    ensures Stirling(15, 9) == 67128490
    ensures Stirling(15, 10) == 12662650
    ensures Stirling(15, 11) == 1479478
    ensures Stirling(15, 12) == 106470
    ensures Stirling(15, 13) == 4550
    ensures Stirling(15, 14) == 105
    ensures Stirling(15, 15) == 1
  {
    hide Stirling;
    Row14();
    FirstColumn(14);
    AboveDiagonal(14, 15);
    Step(15, 1, 0, 1);
    Step(15, 2, 1, 8191);
    Step(15, 3, 8191, 788970);
    Step(15, 4, 788970, 10391745);
    Step(15, 5, 10391745, 40075035);
    Step(15, 6, 40075035, 63436373);
    Step(15, 7, 63436373, 49329280);
    Step(15, 8, 49329280, 20912320);
    Step(15, 9, 20912320, 5135130);
    Step(15, 10, 5135130, 752752);
    Step(15, 11, 752752, 66066);
    Step(15, 12, 66066, 3367);
    Step(15, 13, 3367, 91);
    Step(15, 14, 91, 1);
    Step(15, 15, 1, 0);
  }

  lemma Row16()
    ensures Stirling(16, 1) == 1
    ensures Stirling(16, 2) == 32767
    ensures Stirling(16, 3) == 7141686
    ensures Stirling(16, 4) == 171798901
    ensures Stirling(16, 5) == 1096190550
    ensures Stirling(16, 6) == 2734926558
    ensures Stirling(16, 7) == 3281882604
    ensures Stirling(16, 8) == 2141764053
    ensures Stirling(16, 9) == 820784250
    ensures Stirling(16, 10) == 193754990
    ensures Stirling(16, 11) == 28936908
    ensures Stirling(16, 12) == 2757118
    ensures Stirling(16, 13) == 165620
    ensures Stirling(16, 14) == 6020
    ensures Stirling(16, 15) == 120
    ensures Stirling(16, 16) == 1
  {
    hide Stirling;
    Row15();
    FirstColumn(15);
    AboveDiagonal(15, 16);
    Step(16, 1, 0, 1);
    Step(16, 2, 1, 16383);
    Step(16, 3, 16383, 2375101);
    Step(16, 4, 2375101, 42355950);
    Step(16, 5, 42355950, 210766920);
    Step(16, 6, 210766920, 420693273);
    Step(16, 7, 420693273, 408741333);
    Step(16, 8, 408741333, 216627840);
    Step(16, 9, 216627840, 67128490);
    Step(16, 10, 67128490, 12662650);
    Step(16, 11, 12662650, 1479478);
    Step(16, 12, 1479478, 106470);
    Step(16, 13, 106470, 4550);
    Step(16, 14, 4550, 105);
    Step(16, 15, 105, 1);
    Step(16, 16, 1, 0);
  }

  lemma Row17()
    ensures Stirling(17, 1) == 1
    ensures Stirling(17, 2) == 65535
    ensures Stirling(17, 3) == 21457825
    ensures Stirling(17, 4) == 694337290
    ensures Stirling(17, 5) == 5652751651
    ensures Stirling(17, 6) == 17505749898
    ensures Stirling(17, 7) == 25708104786
    ensures Stirling(17, 8) == 20415995028
    ensures Stirling(17, 9) == 9528822303
    ensures Stirling(17, 10) == 2758334150
    ensures Stirling(17, 11) == 512060978
    ensures Stirling(17, 12) == 62022324
    ensures Stirling(17, 13) == 4910178
    ensures Stirling(17, 14) == 249900
    ensures Stirling(17, 15) == 7820
    ensures Stirling(17, 16) == 136
    ensures Stirling(17, 17) == 1
  {
    hide Stirling;
    Row16();
    FirstColumn(16);
    AboveDiagonal(16, 17);
    Step(17, 1, 0, 1);
    Step(17, 2, 1, 32767);
    Step(17, 3, 32767, 7141686);
    Step(17, 4, 7141686, 171798901);
    Step(17, 5, 171798901, 1096190550);
    Step(17, 6, 1096190550, 2734926558);
    Step(17, 7, 2734926558, 3281882604);
    Step(17, 8, 3281882604, 2141764053);
    Step(17, 9, 2141764053, 820784250);
    Step(17, 10, 820784250, 193754990);
    Step(17, 11, 193754990, 28936908);
    Step(17, 12, 28936908, 2757118);
    Step(17, 13, 2757118, 165620);
    Step(17, 14, 165620, 6020);
    Step(17, 15, 6020, 120);
    Step(17, 16, 120, 1);
    Step(17, 17, 1, 0);
  }

  lemma Row18()
    ensures Stirling(18, 1) == 1
    ensures Stirling(18, 2) == 131071
    ensures Stirling(18, 3) == 64439010
    ensures Stirling(18, 4) == 2798806985
    ensures Stirling(18, 5) == 28958095545
    ensures Stirling(18, 6) == 110687251039
    ensures Stirling(18, 7) == 197462483400
    ensures Stirling(18, 8) == 189036065010
    ensures Stirling(18, 9) == 106175395755
    ensures Stirling(18, 10) == 37112163803
    ensures Stirling(18, 11) == 8391004908
    ensures Stirling(18, 12) == 1256328866
    ensures Stirling(18, 13) == 125854638
    ensures Stirling(18, 14) == 8408778
    ensures Stirling(18, 15) == 367200
    ensures Stirling(18, 16) == 9996
    ensures Stirling(18, 17) == 153
    ensures Stirling(18, 18) == 1
  {
    hide Stirling;
    Row17();
    FirstColumn(17);
    AboveDiagonal(17, 18);
    Step(18, 1, 0, 1);
    Step(18, 2, 1, 65535);
    Step(18, 3, 65535, 21457825);
    Step(18, 4, 21457825, 694337290);
    Step(18, 5, 694337290, 5652751651);
    Step(18, 6, 5652751651, 17505749898);
    Step(18, 7, 17505749898, 25708104786);
    Step(18, 8, 25708104786, 20415995028);
    Step(18, 9, 20415995028, 9528822303);
    Step(18, 10, 9528822303, 2758334150);
    Step(18, 11, 2758334150, 512060978);
    Step(18, 12, 512060978, 62022324);
    Step(18, 13, 62022324, 4910178);
    Step(18, 14, 4910178, 249900);
    Step(18, 15, 249900, 7820);
    Step(18, 16, 7820, 136);
    Step(18, 17, 136, 1);
    Step(18, 18, 1, 0);
  }

  lemma Bell0()
    ensures Bell(0) == 1
  {
    hide Stirling;
    Row0();
  }

  lemma Bell1()
    ensures Bell(1) == 1
  {
    hide Stirling;
    Row1();
    FirstColumn(1);
  }

  lemma Bell2()
    ensures Bell(2) == 2
  {
    hide Stirling;
    Row2();
    FirstColumn(2);
  }

  lemma Bell3()
    ensures Bell(3) == 5
  {
    hide Stirling;
    Row3();
    FirstColumn(3);
  }

  lemma Bell4()
    ensures Bell(4) == 15
  {
    hide Stirling;
    Row4();
    FirstColumn(4);
  }

  lemma Bell5()
    ensures Bell(5) == 52
  {
    hide Stirling;
    Row5();
    FirstColumn(5);
  }

  lemma Bell6()
    ensures Bell(6) == 203
  {
    hide Stirling;
    Row6();
    FirstColumn(6);
  }

  lemma Bell7()
    ensures Bell(7) == 877
  {
    hide Stirling;
    Row7();
    FirstColumn(7);
  }

  lemma Bell8()
    ensures Bell(8) == 4140
  {
    hide Stirling;
    Row8();
    FirstColumn(8);
  }

  lemma Bell9()
    ensures Bell(9) == 21147
  {
    hide Stirling;
    Row9();
    FirstColumn(9);
  }

  lemma Bell10()
    ensures Bell(10) == 115975
  {
    hide Stirling;
    Row10();
    FirstColumn(10);
    assert StirlingRowSum(10, 5) == 86472;
  }

  lemma Bell11()
    ensures Bell(11) == 678570
  {
    hide Stirling;
    Row11();
    FirstColumn(11);
    assert StirlingRowSum(11, 5) == 422005;
  }

  lemma Bell12()
    ensures Bell(12) == 4213597
  {
    hide Stirling;
    Row12();
    FirstColumn(12);
    assert StirlingRowSum(12, 6) == 3403127;
  }

  lemma Bell13()
    ensures Bell(13) == 27644437
  {
    hide Stirling;
    Row13();
    FirstColumn(13);
    assert StirlingRowSum(13, 6) == 19628064;
  }

  lemma Bell14()
    ensures Bell(14) == 190899322
  {
    hide Stirling;
    Row14();
    FirstColumn(14);
    assert StirlingRowSum(14, 7) == 164029595;
  }

  lemma Bell15()
    ensures Bell(15) == 1382958545
  {
    hide Stirling;
    Row15();
    FirstColumn(15);
    assert StirlingRowSum(15, 7) == 1084948961;
  }

  lemma Bell16()
    ensures Bell(16) == 10480142147
  {
    hide Stirling;
    Row16();
    FirstColumn(16);
    assert StirlingRowSum(16, 8) == 9433737120;
  }

  lemma Bell17()
    ensures Bell(17) == 82864869804
  {
    hide Stirling;
    Row17();
    FirstColumn(17);
    assert StirlingRowSum(17, 8) == 69998462014;
  }

  lemma Bell18()
    ensures Bell(18) == 682076806159
  {
    hide Stirling;
    Row18();
    FirstColumn(18);
    assert StirlingRowSum(18, 9) == 635182667816;
  }

  /** The test file's table lists exactly the Bell numbers Bell(0) .. Bell(18). */
  lemma BellNumbersCorrect(n: nat)
    requires n < |BellNumbers|
    ensures BellNumbers[n] == Bell(n)
  {
    hide Bell;
    Bell0();
    Bell1();
    Bell2();
    Bell3();
    Bell4();
    Bell5();
    Bell6();
    Bell7();
    Bell8();
    Bell9();
    Bell10();
    Bell11();
    Bell12();
    Bell13();
    Bell14();
    Bell15();
    Bell16();
    Bell17();
    Bell18();
    assert BellNumbers == [Bell(0), Bell(1), Bell(2), Bell(3), Bell(4), Bell(5), Bell(6), Bell(7), Bell(8), Bell(9), Bell(10), Bell(11), Bell(12), Bell(13), Bell(14), Bell(15), Bell(16), Bell(17), Bell(18)];
  }

  /** The enumeration count the test asserts: the generator yields BellNumbers[n] partitions. */
  lemma EnumerateCountMatchesTable(n: nat)
    requires n < |BellNumbers|
    ensures |Enumerate(n)| == BellNumbers[n]
  {
    EnumerateCount(n);
    BellNumbersCorrect(n);
  }
}

=== FILE: validation.dfy ===
/**
 * Validation of one test case's posterior samples.
 *
 * The samples are streamed into a tally; the run is rejected when a repeated
 * latent's score drifts, when the number of samples differs from the
 * configured sample count, or when more distinct latents appear than the
 * latent space holds.  Otherwise it reports whether fewer latents were seen
 * than exist, and the verdict of the truncated goodness-of-fit comparison.
 *
 * The softmax turning scores into probabilities, the argsort and the
 * goodness-of-fit statistic come from outside the model and are parameters.
 */
module Validation {
  import opened Wrappers
  import opened Counting
  import opened StirlingTable
  import opened Accumulation
  import opened Ranking

  /**
   * The number of distinct latents a case can reach: every cross-cat when
   * kinds are inferred, otherwise the row partitions of a single kind.
   */
  function ExpectedLatentCount(objects: nat, features: nat, inferKinds: bool): (r: nat)
    requires objects < |BellNumbers|
    ensures r == if inferKinds then CrossCatReference(BellNumbers[objects], features) else Bell(objects)
  {
    CrossCatIdentity(objects, features);
    BellNumbersCorrect(objects);
    if inferKinds then CountCrossCats(objects, features) else BellNumbers[objects]
  }

  /** The tally checks, in the order the test makes them; on success, whether latents are missing. */
  function CheckTally<L>(t: Tally<L>, sampleCount: nat, expected: nat): (r: Result<bool, Fault>)
    ensures r.Success? <==> t.actual == sampleCount && |t.scores.Keys| <= expected
    ensures t.actual != sampleCount ==> r == Failure(CountMismatch(t.actual, sampleCount))
    ensures t.actual == sampleCount && |t.scores.Keys| > expected ==> r == Failure(TooManyLatents(|t.scores.Keys|, expected))
    ensures r.Success? ==> (r.value <==> |t.scores.Keys| < expected)
  {
    if t.actual != sampleCount then Failure(CountMismatch(t.actual, sampleCount))
    else if |t.scores.Keys| > expected then Failure(TooManyLatents(|t.scores.Keys|, expected))
    else Success(|t.scores.Keys| < expected)
  }

  /** A case that passed the checks: whether latents were missing, and the verdict. */
  datatype Outcome = Outcome(underCovered: bool, verdict: Verdict)

  /** The values of a map listed in the given key order. */
  function InOrder<L, V>(m: map<L, V>, order: seq<L>): (r: seq<V>)
    requires forall x :: x in order ==> x in m
    ensures |r| == |order| && forall k :: 0 <= k < |order| ==> r[k] == m[order[k]]
  {
    seq(|order|, k requires 0 <= k < |order| => m[order[k]])
  }

  /**
   * The whole validation of one case.  `order` is the key order of the
   * tally's dictionary, `softmax` turns scores into probabilities, `argsort`
   * sorts indices by key and `gof` is the goodness-of-fit statistic.
   */
  method TestDatasetConfig<L(==)>(samples: seq<Sample<L>>, sampleCount: nat, objects: nat, features: nat,
                                  iterations: nat, order: seq<L>, softmax: seq<real> -> seq<real>,
                                  argsort: seq<real> -> seq<nat>, gof: GoodnessOfFit)
    returns (r: Result<Outcome, Fault>)
    requires objects < |BellNumbers|
    requires IsListing(order, Latents(samples))
    requires forall s :: |softmax(s)| == |s|
    requires forall keys :: IsArgsort(keys, argsort(keys))
    ensures r.Success? <==>
      (forall i :: 0 <= i < |samples| ==> ConsistentAt(samples, i)) &&
      |samples| == sampleCount &&
      |Latents(samples)| <= ExpectedLatentCount(objects, features, iterations > 0)
    ensures !(forall i :: 0 <= i < |samples| ==> ConsistentAt(samples, i)) ==>
      r.Failure? && r.error.InconsistentScore? && r.error.index < |samples| &&
      !ConsistentAt(samples, r.error.index) &&
      (forall j :: 0 <= j < r.error.index ==> ConsistentAt(samples, j)) &&
      r.error.score == samples[r.error.index].1 &&
      r.error.firstScore == FirstScore(samples[..r.error.index], samples[r.error.index].0)
    ensures (forall i :: 0 <= i < |samples| ==> ConsistentAt(samples, i)) && |samples| != sampleCount ==>
      r == Failure(CountMismatch(|samples|, sampleCount))
    ensures ((forall i :: 0 <= i < |samples| ==> ConsistentAt(samples, i)) && |samples| == sampleCount &&
             |Latents(samples)| > ExpectedLatentCount(objects, features, iterations > 0)) ==>
      r == Failure(TooManyLatents(|Latents(samples)|, ExpectedLatentCount(objects, features, iterations > 0)))
    ensures r.Success? ==>
      (r.value.underCovered <==> |Latents(samples)| < ExpectedLatentCount(objects, features, iterations > 0))
    ensures r.Success? ==>
      var probs := softmax(InOrder(TallyOf(samples).scores, order));
      (r.value.verdict == Warn <==> NoneAccurate(probs, sampleCount, argsort(probs))) &&
      r.value.verdict == Analyse(probs, InOrder(TallyOf(samples).counts, order), sampleCount, argsort, gof)
  {
    var tallied := Accumulate(samples);
    if tallied.Failure? {
      return Failure(tallied.error);
    }
    var tally := tallied.value;
    assert tally.scores.Keys == Latents(samples);
    var expected := ExpectedLatentCount(objects, features, iterations > 0);
    var checked := CheckTally(tally, sampleCount, expected);
    if checked.Failure? {
      return Failure(checked.error);
    }
    var counts := InOrder(tally.counts, order);
    var scores := InOrder(tally.scores, order);
    var probs := softmax(scores);
    var verdict := Analyse(probs, counts, sampleCount, argsort, gof);
    return Success(Outcome(checked.value, verdict));
  }
}

=== FILE: wrappers.dfy ===
/** Option and Result types shared by the other modules. */
module Wrappers {

  datatype Option<+T> = None | Some(value: T)

  /** Either a value, or the error that stopped the computation. */
  datatype Result<+R, +E> = Success(value: R) | Failure(error: E)
}
